=== FILE: README.md ===
# git-pep8 sweep, modelled in Dafny

`git_pep8` walks a fixed, ordered catalog of PEP 8 rules. For every rule, and
then for every file of a listing, it runs
`autopep8 --in-place --verbose --select=<rule>` on the file. It compares the file's SHA-1 digest taken before that pair with
the one taken after it. When they differ, it commits the file with the message
`"<path>: <rule> <description>"`. It counts the commits and ends with
`"# <n> files scanned/modified"`. Three helpers from `src/common` come with
it:
- `get_filelist` builds the listing and filters it by extension and by `.egg`
  path components.
- `git_commit` builds the commit command, launches it, and raises when `git`
  exits nonzero.
- `test_for_required_binaries` reports the external tools and exits with
  status 1 when one is missing.

The model is functional. `GitPep8.Sweep` is a fold over the steps the
`loop_params` generator yields: one notice per rule, then one visit per
(rule, file) pair. The fold threads the file contents (`map<string,string>`)
and the counter, and builds a trace of `Event`s. Those events are notices,
echoed commands, shown formatter output, alerts, process launches and the
summary line. The formatter and `git` are oracles passed in as total
functions. A digest is modelled as the content it digests, so a "hash
change" is a content change. Any failure ends the fold with a `Failure`:
- a file that cannot be read,
- a formatter that exits nonzero,
- a commit that exits nonzero.

Modules:
- `Results`: `Option`, `Result`, Python truthiness of an optional string.
- `Text`: `str.rfind`, `str.split`, `str.join` and decimal formatting.
- `Paths`: `os.path.splitext`, `os.path.join` and the `^.*\.egg$` test, with
  the regex semantics written out: `.` does not match a newline, and `$` also
  matches before a final newline.
- `Common`: the helpers of `src/common/__init__.py`.
- `Catalog`: the `ERRORS` list.
- `GitPep8`: `loop_params`, `run_command`, one pair, the sweep, and
  `run_autopep8`.
- `GitPep8Props`: whole-run properties.
- `Scenarios`: a concrete trailing-whitespace run, for real, with
  `--verbose` and in dry-run, plus a two-rule notice and a missing-binary
  report.

The catalog. At `src/git_pep8.py:89` the `E122` entry ends in `).` instead of
`),`, so the `ERRORS` literal does not parse as written. The orchestrator
(`RunOnFiles`, `RunAutopep8`) takes the catalog as a parameter.
`Catalog.Errors` is the intended 52-entry list, with that `.` read as a
comma. It keeps the duplicate `E261` and `E251` entries, which the sweep
visits once per occurrence.

What the code does at a few points that are easy to misread:
- `run_command` merges stderr into stdout. The value it raises with is
  therefore always empty (`None`), not the formatter's output, so
  `FormatterFailed` carries nothing.
- `loop_params` takes the before-digest of every pair, in dry-run as well.
  A dry run does read every listed file, so an unreadable path (a directory
  from the non-recursive listing, say) aborts it with `Unreadable`. A dry run
  still never compares digests.
- The before-digest is taken lazily, when the pair is reached. It therefore
  sees the content left by every earlier pair, including the earlier rules'
  passes over the same file.
- The summary counts changed (rule, file) pairs, not files. A file that
  several rules change is counted once per rule.

## Model

| member | source | states |
|---|---|---|
| Text.RFind | src/common/__init__.py:115 | the index of the last occurrence of a character, or -1: the character is there and never after it |
| Text.Split | src/common/__init__.py:119 | `path.split("/")`: at least one part, no part holds the separator, and joining the parts with it gives the path back |
| Text.SplitJoin | src/common/__init__.py:119 | splitting a join of separator-free parts gives the parts back (split and join are inverse) |
| Text.Decimal | src/git_pep8.py:138 | `"{0}".format(n)` for a count: non-empty, all digits, no leading zero except for 0 itself |
| Text.DecimalRoundTrip | src/git_pep8.py:101-102 | reading a formatted number back gives the number, so notice indices and counts are unambiguous |
| Paths.SplitExt | src/common/__init__.py:115 | `os.path.splitext`: root and extension concatenate to the path |
| Paths.Ext | src/common/__init__.py:115 | `os.path.splitext(path)[1]`; no contract of its own: `Paths.ExtSound` and `Paths.ExtComplete` state what it returns, and `Paths.ExtUnderDirectory` how joining a directory affects it |
| Paths.ExtSound | src/common/__init__.py:115 | a non-empty extension is a final dot-suffix of the last component, without dots or slashes after the dot, and preceded in that component by a non-dot character |
| Paths.ExtComplete | src/common/__init__.py:115 | any suffix that meets that declarative reading is the extension `splitext` returns, so the two agree on every path |
| Paths.PathJoin | src/common/__init__.py:103-111 | `os.path.join(root, f)` ends with `f` |
| Paths.ExtUnderDirectory | src/common/__init__.py:103-115 | joining a slash-free name under any directory does not change its extension, so the extension filter judges a listed file by its own name |
| Paths.EggNameIsSuffix | src/common/__init__.py:95-98 | for a newline-free component, `^.*\.egg$` matches exactly when it ends in `.egg` |
| Paths.IsEggName | src/common/__init__.py:95-98 | `egg_re.match` on one path component; no contract of its own: `Paths.EggNameIsSuffix` states that it holds exactly for the newline-free components ending in `.egg` |
| Paths.InEgg | src/common/__init__.py:119 | `any(is_egg_dir(p) for p in path.split("/"))`; no contract of its own: `Common.GetFilelist` states that a path with such a component is never listed, and `Text.Split` what the components are |
| Common.AllFound | src/common/__init__.py:57 | true exactly when every needed binary is found |
| Common.TestForRequiredBinaries | src/common/__init__.py:51-61 | exits with status 1 exactly when some binary is missing; then prints the header and one Found/Not found line per binary, in order; otherwise prints nothing |
| Common.CommitArgvRoundTrip | src/common/__init__.py:76-78 | the commit command parses back to its path and comment behind `"<path>: "`, and to an `--author` exactly when the author is truthy |
| Common.CommitMessage | src/common/__init__.py:76 | `"{0}: {1}".format(fullpath, comment)`; no contract of its own: `Common.CommitArgvRoundTrip` states that the path and the comment are read back from it, and `Scenarios.ScenarioCommit` one concrete message |
| Common.CommitArgv | src/common/__init__.py:76-78 | the commit command; no contract of its own: `Common.CommitArgvRoundTrip` states that it parses back to path, comment and author, and `Scenarios.ScenarioCommit` one concrete command |
| Common.GitCommit | src/common/__init__.py:72-87 | echoes the command exactly when dry-run or verbose; launches it exactly once unless dry-run; fails exactly when launched and `git` exits nonzero, with `git`'s stderr, and then alerts "Error in <path>" as the last event; every event is that echo, that launch or that alert, in the order echo, launch, alert, so a verbose run echoes before it launches |
| GitPep8.CommitTrace | src/common/__init__.py:72-87 | a commit that `git` accepts outside dry-run is exactly the echo of its command when verbose, then its launch, and nothing else |
| Common.Launched | src/common/__init__.py:82-87 | the launched part of a commit: the one launch of the command, followed by "Error in <path>" exactly when `git` exits nonzero, and nothing else |
| Common.FoundLabel | src/common/__init__.py:60 | `"Found" if found_binary else "Not found"`; no contract of its own: `Common.TestForRequiredBinaries` states the line it produces for each binary |
| Common.Filter | src/common/__init__.py:115-121 | a filter keeps an order-preserving subsequence, holding each accepted path as often as the input does and no rejected path |
| Common.ExtFilter | src/common/__init__.py:115 | the extension filter; no contract of its own: `Common.Filter` states what any filter keeps, `Common.GetFilelist` that exactly the paths with the wanted extension (every path when none is given) pass, `Common.FiltersCommute` and `Common.FilterIdempotent` how it combines with the egg filter |
| Common.ExtMatches | src/common/__init__.py:115 | the extension test `ext is None or os.path.splitext(path)[1] == ext`; no contract of its own: `Common.GetFilelist` states that exactly the paths passing it and the egg test are listed, and `Paths.ExtSound` and `Paths.ExtComplete` what the extension is |
| Common.Kept | src/common/__init__.py:115-119 | a path passes both filters; no contract of its own: `Common.GetFilelist` states that the listing is exactly the raw paths it accepts, and `GitPep8Props.SingleFileRun` that a start file is swept exactly when it holds |
| Common.EggFilter | src/common/__init__.py:119 | the egg filter; no contract of its own: the same lemmas state that exactly the paths with no `.egg` component pass |
| Common.Walked | src/common/__init__.py:103-107 | the recursive listing, `os.path.join(root, f)` for each walk entry and file in order; no contract of its own: `Paths.PathJoin` and `Paths.ExtUnderDirectory` state what each joined path keeps of its file name |
| Common.RawListing | src/common/__init__.py:100-112 | the unfiltered listing: the start path alone when it is a file, else the walk or the immediate entries; no contract of its own: `Common.GetFilelist` states the filtered listing in terms of it |
| Common.GetFilelist | src/common/__init__.py:90-121 | the result is an order-preserving subsequence of the raw listing; every path that passes both the extension and the egg filter is kept with its multiplicity, and no other path is; a start path that is a file is listed alone and filtered too |
| Common.FilterIdempotent | src/common/__init__.py:115-121 | applying both filters again to their output changes nothing |
| Common.FilterTwice | src/common/__init__.py:115-119 | a filter applied to its own output keeps everything |
| Common.FiltersCommute | src/common/__init__.py:115-119 | the extension and egg filters, chained as generators, give the same list in either order |
| Catalog.CatalogSize | src/git_pep8.py:18-96 | the intended catalog has 52 entries |
| Catalog.Errors | src/git_pep8.py:18-96 | the catalog itself, a constant; `Catalog.CatalogSize`, `Catalog.E261Twice` and `Catalog.E251Twice` state its length and its duplicates |
| Catalog.E261Twice | src/git_pep8.py:45-49 | E261 occurs twice, at 0-based positions 19 and 23, with different descriptions |
| Catalog.E251Twice | src/git_pep8.py:48-56 | E251 occurs twice, at 0-based positions 22 and 28, with different descriptions |
| GitPep8.FormatterArgvRoundTrip | src/git_pep8.py:119-124 | the formatter command parses back to the binary (`autopep8` unless a truthy one is given), the one selected rule, and the one file |
| GitPep8.FormatterBinary | src/git_pep8.py:119 | `autopep8 or "autopep8"`; no contract of its own: `GitPep8.FormatterArgvRoundTrip` states that the command carries the given binary when it is truthy and `autopep8` otherwise |
| GitPep8.FormatterArgv | src/git_pep8.py:123-124 | the formatter command; no contract of its own: `GitPep8.FormatterArgvRoundTrip` states that it parses back to binary, rule and file, and `Scenarios.ScenarioFormatter` one concrete command |
| GitPep8.NoticeText | src/git_pep8.py:101-102 | the notice line `"i of N: id desc"`; no contract of its own: `GitPep8Props.LoopParamsNotices` states which notices a run shows, `Text.DecimalRoundTrip` that its numbers read back, and `Scenarios.ScenarioNotice` one concrete line |
| GitPep8.SummaryText | src/git_pep8.py:138 | the summary line; no contract of its own: `GitPep8Props.RunOnFilesCount` states which count it reports, and `Scenarios.ScenarioSummaries` the lines for 0 and 1 |
| GitPep8.RunCommand | src/git_pep8.py:108-114 | succeeds exactly on exit code 0 with the captured output, and otherwise raises |
| GitPep8.AfterFormat | src/git_pep8.py:128-137 | after the formatter: raises exactly on a nonzero exit; is unchanged exactly when the content equals the before-content; otherwise its events are exactly the output followed by the events of the commit, and it succeeds with a commit exactly when `git` exits 0, failing with `git`'s stderr and a last "Error in <path>" when it does not; the failed and unchanged paths show nothing, and every launch it makes is a commit |
| GitPep8.AfterFormatTrace | src/git_pep8.py:128-136 | a changed file whose commit `git` accepts gives exactly: the formatter output, the echo of the commit command when verbose, the commit launch |
| GitPep8.ShowAndCommit | src/git_pep8.py:132-136 | a changed file: the events are exactly the formatter output, then the events of one `git_commit` of that file with `"<id> <desc>"` (echoed exactly when verbose), so it launches exactly one process; it succeeds exactly when `git` exits 0 and otherwise fails with `git`'s stderr, ending with "Error in <path>" |
| GitPep8.Comment | src/git_pep8.py:135 | the commit comment `"{0} {1}".format(error_no, error_comment)`; no contract of its own: `Common.CommitArgvRoundTrip` states that the comment is read back from the commit command, `GitPep8.VisitCommands` that a committing pair commits with it, and `Scenarios.ScenarioCommit` one concrete comment |
| GitPep8.Launch | src/git_pep8.py:127-137 | a launched pair starts with the formatter command, runs the formatter exactly once, stores what it writes, and commits exactly when the exit is 0, the content changed and `git` succeeds; every other launch is a commit; a failed commit ends it with "Error in <path>" |
| GitPep8.LaunchTrace | src/git_pep8.py:123-136 | a launched pair that changed its file and committed it gives exactly: the formatter launch, its output, the echo of the commit command when verbose, the commit launch |
| GitPep8.VisitCommitFailed | src/git_pep8.py:127-136 | a launched pair whose formatter exited 0 and changed the file, and whose commit `git` rejects, fails with `git`'s stderr, ends with "Error in <path>", and leaves the formatter's rewrite of the file in place |
| GitPep8.VisitLaunchResult | src/git_pep8.py:127-137 | outside dry-run a readable pair ends as its launch does |
| GitPep8.DoVisit | src/git_pep8.py:122-137 | an unreadable file fails before anything is shown; dry-run launches nothing, changes nothing and never commits; otherwise one formatter run, every other launch is a commit, and the counter-raising outcome holds exactly when not dry-run, the formatter succeeded, the content changed and the commit succeeded |
| GitPep8.Logged | src/git_pep8.py:123-127 | echo lines in front of a step launch nothing: the step's files, result, launches and commits are unchanged |
| GitPep8.VisitCommands | src/git_pep8.py:123-133 | the formatter command is echoed first exactly when verbose or dry-run; it is launched unless dry-run; a committing pair shows the formatter output and launches the commit for that file with `"<id> <desc>"` |
| GitPep8.VisitShows | src/git_pep8.py:125-136 | the formatter output is shown exactly when the pair is not a dry run, the formatter exited 0 and the content changed; the commit command is echoed exactly when, besides that, the run is verbose |
| GitPep8.VisitQuiet | src/git_pep8.py:125-129 | a dry-run pair, or one whose formatter failed or left the file as it was, shows only the echo of the formatter command (when verbose or dry-run) and, unless dry-run, its launch |
| GitPep8.VisitChanged | src/git_pep8.py:127-136 | a launched pair that changed the file shows the formatter output and echoes the commit command exactly when verbose |
| GitPep8.LaunchChanged | src/git_pep8.py:128-136 | the same for the part of the pair from the formatter launch on |
| GitPep8.ChangedShows | src/git_pep8.py:129-136 | after a formatter run that changed the file the output is shown and the commit command is echoed exactly when verbose, whatever was shown before, provided that was not the commit echo |
| GitPep8.FormatterIsNoCommit | src/git_pep8.py:123-124 | no formatter command is a commit command, so the two echoes of a pair can be told apart |
| GitPep8.DoStep | src/git_pep8.py:100-105 | one item of the generator: a notice shows its line, a pair is `GitPep8.DoVisit`; no contract of its own: `GitPep8Props.StepFormatterCall` states which formatter call it makes |
| GitPep8.Sweep | src/git_pep8.py:122-137 | the loop over the generator; no contract of its own: `GitPep8Props.SweepAppend`, `SweepStopsAtFailure`, `SweepCount`, `SweepDryRun`, `SweepProgress`, `SweepFormatterCalls`, `SweepNoSummary`, `SweepFinalContents` and `SweepFailure` state its properties |
| GitPep8.RunOnFiles | src/git_pep8.py:121-138 | the loop and the summary; no contract of its own: the `GitPep8Props.RunOnFiles*` lemmas state its properties |
| GitPep8.RunAutopep8 | src/git_pep8.py:117-138 | `run_autopep8`; no contract of its own: `GitPep8Props.SingleFileRun` states the run from a file, and the `RunOnFiles*` lemmas the run over any listing |
| GitPep8.VisitOutcome | src/git_pep8.py:127-137 | outside dry-run a readable pair ends in exactly one of: formatter failure, unchanged, committed, or commit failure carrying `git`'s stderr |
| GitPep8Props.ParamsFromNotices | src/git_pep8.py:100-102 | the generator announces each rule once, in order, numbered from the starting index |
| GitPep8.ParamsFrom | src/git_pep8.py:100-105 | the generator from a given rule index on; no contract of its own: `GitPep8Props.ParamsFromNotices`, `ParamsFromPairs`, `ParamsFromLength` and `ParamsFromAt` state what it yields |
| GitPep8.LoopParams | src/git_pep8.py:99-105 | `loop_params`; no contract of its own: `GitPep8Props.LoopParamsNotices`, `LoopParamsPairs`, `LoopParamsAt`, `LoopParamsNoticeAt` and `LoopParamsVisitFiles` state what it yields |
| GitPep8Props.LoopParamsNotices | src/git_pep8.py:99-102 | `loop_params` announces exactly `"i of N: id desc"` for i = 1..N, N the catalog length, in catalog order |
| GitPep8Props.ParamsFromPairs | src/git_pep8.py:100-105 | the pairs handed out are the rule-major product of the rules and the files |
| GitPep8Props.RuleMajorAt | src/git_pep8.py:99-105 | in the rule-major product, rule i with file j sits at position i·F+j of R·F, for R rules and F files |
| GitPep8Props.LoopParamsPairs | src/git_pep8.py:99-105 | `loop_params` yields every (rule, file) pair exactly once, rule-major, duplicates in the catalog included: R·F pairs for R rules and F files |
| GitPep8Props.ParamsFromLength | src/git_pep8.py:100-105 | the generator yields one notice and F pairs per rule: R·(F+1) items for R rules and F files |
| GitPep8Props.ParamsFromAt | src/git_pep8.py:100-105 | rule i owns the block of F+1 items at i·(F+1): item 0 is its notice, numbered i past the starting index, and item 1+j is its pair with file j |
| GitPep8Props.LoopParamsAt | src/git_pep8.py:99-105 | in `loop_params`, rule i's notice `i+1 of N` sits at i·(F+1), immediately before the rule's pairs, and the pair of rule i with file j at i·(F+1)+1+j |
| GitPep8Props.LoopParamsNoticeAt | src/git_pep8.py:99-102 | rule i's notice sits at i·(F+1) also when there are no files |
| GitPep8Props.StepFormatterCall | src/git_pep8.py:123-128 | outside dry-run a completed step launches the formatter once per pair it holds, with that pair's command, and a notice launches no formatter |
| GitPep8Props.VisitFormatterCall | src/git_pep8.py:123-128 | outside dry-run a readable pair launches exactly one formatter command, its own |
| GitPep8Props.SweepAppend | src/git_pep8.py:122 | sweeping two stretches of steps is sweeping the first and, if it completed, continuing from its files and count |
| GitPep8Props.SweepStopsAtFailure | src/git_pep8.py:128 | once a step raises, no later step is taken: the run is the same whatever follows |
| GitPep8Props.SweepFailure | src/git_pep8.py:122-137 | a sweep that raised is a completed sweep of the steps before some step k, followed by step k, which raised: its events are the completed prefix's events then step k's, and its files are those step k left, so a formatter rewrite before a failed commit stays on disk |
| GitPep8Props.FailingStep | src/git_pep8.py:122-137 | a sweep that raised has a first failing step: every step before it completes |
| GitPep8Props.SweepCommitFailure | src/common/__init__.py:82-87 | a sweep stopped by a failed commit stopped at a pair, and its last event is "Error in <path>" for that pair's file |
| GitPep8Props.NoticeFirst | src/git_pep8.py:100-102 | a notice in front of other steps shows its line first and changes no file or count |
| GitPep8Props.SweepCount | src/git_pep8.py:121-137 | the counter of a completed sweep equals its start plus the number of commit launches |
| GitPep8Props.SweepDryRun | src/git_pep8.py:125-127 | a dry-run sweep launches nothing and changes no file; it fails only on an unreadable file, and with readable files it completes without counting |
| GitPep8Props.SweepProgress | src/git_pep8.py:100-102 | a completed sweep shows exactly its steps' notices, in order |
| GitPep8Props.SweepFormatterCalls | src/git_pep8.py:122-128 | outside dry-run a completed sweep launches the formatter exactly once per pair, in order, with that pair's command |
| GitPep8Props.SweepNoSummary | src/git_pep8.py:122-137 | no step of the loop prints the summary line |
| GitPep8Props.CommitOrderly | src/common/__init__.py:80-87 | a commit that `git` accepts raises no alert and launches only the commit |
| GitPep8Props.AfterFormatOrderly | src/git_pep8.py:128-137 | a completed step after the formatter raises no alert and launches only commits |
| GitPep8Props.LaunchOrderly | src/git_pep8.py:123-137 | a completed launched pair raises no alert and launches only its formatter command and commits |
| GitPep8Props.LaunchedVisitOrderly | src/git_pep8.py:123-137 | the same for the pair with its echo in front |
| GitPep8Props.VisitOrderly | src/git_pep8.py:122-137 | a completed pair, in dry-run or not, raises no alert and launches only formatter commands and commits |
| GitPep8Props.SweepOrderly | src/git_pep8.py:122-137 | a completed sweep raises no alert, and each launch in it is a formatter run or a commit |
| GitPep8Props.RunOnFilesOrderly | src/git_pep8.py:121-138 | the same for a completed run |
| GitPep8Props.RunOnFilesCount | src/git_pep8.py:121-138 | a completed run ends with the summary of its count, and the count is the number of commits it launched |
| GitPep8Props.RunOnFilesNotices | src/git_pep8.py:100-102 | a completed run shows one notice per catalog rule, numbered 1..N of N, in order |
| GitPep8Props.RunOnFilesFormatterCalls | src/git_pep8.py:122-128 | outside dry-run a completed run launches the formatter on the rule-major product, one command per pair |
| GitPep8Props.RunOnFilesFormatterCallAt | src/git_pep8.py:123-124 | the formatter call at position i·F+j, for F files, selects rule i and edits file j |
| GitPep8Props.RunOnFilesFailure | src/git_pep8.py:138 | a run that raised prints no summary |
| GitPep8Props.RunOnFilesCommitFailure | src/git_pep8.py:121-137 | a run stopped by a failed commit ends with "Error in <path>" for one of the listed files |
| GitPep8Props.RunOnFilesDryRun | src/git_pep8.py:125-138 | a dry run launches no process and changes no file; it fails only as unreadable, and with all files readable it reports 0 |
| GitPep8Props.LoopParamsVisitFiles | src/git_pep8.py:103-105 | every pair's file comes from the file list |
| GitPep8Props.EmptyFileList | src/git_pep8.py:99-138 | with no files every rule is still announced, nothing is launched, nothing changes, and the summary reports 0 |
| GitPep8Props.SingleFileRun | src/git_pep8.py:117-122 | a start path that is a file is swept alone if it passes both filters, and otherwise the run only announces the rules and reports 0 |
| GitPep8Props.SweepOneRule | src/git_pep8.py:103-129 | one rule's completed pass over distinct readable files rewrites each of them once with the formatter's output for that rule and leaves every other file alone |
| GitPep8Props.SweepFinalContents | src/git_pep8.py:104-129 | a completed sweep leaves each listed file as the rules, applied in catalog order, make it (each pass sees the previous pass's content), and every other file untouched |
| GitPep8Props.RunOnFilesFinalContents | src/git_pep8.py:117-138 | the same for a whole run |
| Scenarios.ScenarioNotice | src/git_pep8.py:101-102 | the first W291 notice of a one-rule catalog reads `"1 of 1: W291 trailing whitespace"` |
| Scenarios.ScenarioSummaries | src/git_pep8.py:138 | the summaries for 0 and 1 read `"# 0 files scanned/modified"` and `"# 1 files scanned/modified"` |
| Scenarios.ScenarioCommit | src/common/__init__.py:76 | the commit for W291 on `foo.py` is `git commit foo.py -m "foo.py: W291 trailing whitespace"` |
| Scenarios.ScenarioFormatter | src/git_pep8.py:123-124 | the formatter command for W291 on `foo.py` is `autopep8 --in-place --verbose --select=W291 foo.py` |
| Scenarios.FirstOfTwoNotice | src/git_pep8.py:101-102 | the first notice of a two-rule catalog reads `"1 of 2: W291 trailing whitespace"`: index before total |
| Scenarios.MissingPep8 | src/common/__init__.py:51-61 | with `git` found and `pep8` not: the header, `"\tgit: Found"`, `"\tpep8: Not found"`, in that order, and exit status 1 |
| Scenarios.StripRun | src/git_pep8.py:127-129 | the scenario's formatter exits 0 and changes the file's content |
| Scenarios.PairOutcome | src/git_pep8.py:127-137 | the scenario's pair, verbose or not, commits and leaves the file without its trailing blank |
| Scenarios.PairEvents | src/git_pep8.py:123-136 | the scenario's pair, verbose or not, gives the changed-pair trace with its output `"fixed"` |
| Scenarios.TrailingWhitespaceVisit | src/git_pep8.py:123-137 | a formatter that removes a trailing blank makes the pair launch it, show its output and commit the file |
| Scenarios.TrailingWhitespaceScenario | src/git_pep8.py:117-138 | that whole run: notice, formatter launch, output, commit, summary of 1, and the file fixed |
| Scenarios.TrailingWhitespaceDryRun | src/git_pep8.py:125-138 | the same run in dry-run: notice, echoed command, summary of 0, file untouched |
| Scenarios.VerboseVisit | src/git_pep8.py:123-137 | the pair with `--verbose`: formatter command echoed, launched, output shown, commit command echoed, launched, and nothing else |
| Scenarios.TrailingWhitespaceVerbose | src/git_pep8.py:117-138 | that whole verbose run: notice, the five pair events, summary of 1, and the file fixed |

## Left out

- Process execution (`Popen`, `communicate`, buffer sizes): the formatter and `git` are oracles from the argument vector (and, for the formatter, the current content) to an exit code, output and the content written.
- `sha1_file` and `hashlib`: a digest is the content itself, so digests are equal exactly when contents are; hash collisions are not modelled.
- GitPep8.Launch: the formatter is assumed to leave the file readable. Its run returns the new content, so the after-digest `sha1_file(fullpath)` at `src/git_pep8.py:129` always succeeds in the model. A formatter that deletes or locks the file, which would make that read raise, is not modelled.
- `os.walk`, `os.listdir` and `os.path.isfile`: the file system answers through a `Target` value. That is either a regular file, or a directory with its walk entries and its immediate entry names. Directories among the immediate entries are listed like files and then fail as unreadable.
- `binary_in_path` (`PATH`, `expanduser`, `expandvars`, `exists`): a `found` predicate.
- `message`, `error`, `info` and `termcolor` colouring: plain events in a trace. Echoed commands are kept as argument vectors rather than space-joined strings, because joining loses nothing the properties need.
- `option_parser` and `main`: command-line parsing and wiring; `run_autopep8`'s parameters are taken directly.
- Python 2 byte strings versus text: contents and paths are sequences of characters.
- Symbolic links, permissions, concurrent changes to files: the file system is a map from path to content.
- GitPep8Props.SweepFinalContents: requires the listed files to be distinct, because a path listed twice is rewritten twice per rule, and the per-file statement would need the pass count; `RulesApplied` states the distinct case.
- GitPep8Props.RunOnFilesFinalContents: requires distinct files, for the same reason.
- Common.GetFilelist: states the walk order as given by the `Target` value and does not model how `os.walk` orders directories.

=== FILE: catalog.dfy ===
/** The ordered rule catalog the sweep walks through. */
module Catalog {

  /** One style-violation category: the formatter's rule code and a
      human-readable description used in notices and commit messages. */
  datatype Rule = Rule(id: string, description: string)

  /** The catalog of `src/git_pep8.py`, in its order and with its duplicate
      codes. The entry for E122 is written there with a trailing `.` instead
      of `,`, which does not parse; it is read here as the comma evidently
      intended. Commented-out entries are absent. */
  const Errors: seq<Rule> := [
    Rule("W391", "blank line at end of file"),
    Rule("W291", "trailing whitespace"),
    Rule("W293", "blank line contains whitespace"),
    Rule("W191", "indentation contains tabs"),
    Rule("E101", "indentation contains mixed spaces and tabs"),

    Rule("E301", "expected 1 blank line, found 0"),
    Rule("E302", "line spacing between functions and classes"),
    Rule("E303", "linespacing between functions and classes"),
    Rule("E304", "Remove blank line following function decorator."),

    Rule("E211", "Remove extraneous whitespace."),
    Rule("E221", "Fix extraneous whitespace around keywords."),
    Rule("E222", "Fix extraneous whitespace around keywords."),
    Rule("E223", "Fix extraneous whitespace around keywords."),
    Rule("E224", "Remove extraneous whitespace around operator."),
    Rule("E225", "Fix missing whitespace around operator."),
    Rule("E226", "Fix missing whitespace around operator."),
    Rule("E227", "Fix missing whitespace around operator."),
    Rule("E228", "Fix missing whitespace around operator."),
    Rule("E231", "Add missing whitespace."),

    Rule("E261", "whitespace after inline comment"),
    Rule("E241", "Fix extraneous whitespace around keywords."),
    Rule("E242", "Remove extraneous whitespace around operator."),
    Rule("E251", "Remove whitespace around parameter '=' sign."),
    Rule("E261", "Fix spacing after comment hash."),
    Rule("E262", "Fix spacing after comment hash."),

    Rule("E203", "whitespace before colon"),
    Rule("E201", "whitespace around [ and ]"),
    Rule("E202", "whitespace around [ and ]"),

    Rule("E251", "unexpected whitespace around parameter equals"),
    Rule("E271", "Fix extraneous whitespace around keywords."),
    Rule("E272", "Fix extraneous whitespace around keywords."),
    Rule("E273", "Fix extraneous whitespace around keywords."),
    Rule("E274", "Fix extraneous whitespace around keywords."),

    Rule("E701", "multiple statements on one line (colon)"),
    Rule("E702", "Put semicolon-separated compound statement on separate lines."),
    Rule("E703", "Put semicolon-separated compound statement on separate lines."),

    Rule("E401", "multiple imports on one line"),

    Rule("E502", "the backslash is redundant between brackets"),
    Rule("W601", ".has_key() is deprecated, use 'in'"),
    Rule("W602", "Fix deprecated form of raising exception."),
    Rule("W603", "Replace <> with !=."),
    Rule("W604", "Replace backticks with repr()."),

    Rule("E711", "comparison to None should be 'if cond is None:'"),
    Rule("E712", "comparison to True should be 'if cond is True:' or 'if cond:'"),

    Rule("E121", "continuation line indentation is not a multiple of four"),

    Rule("E122", "Add absent indentation for hanging indentation"),
    Rule("E123", "closing bracket does not match indentation of opening bracket's line"),
    Rule("E124", "closing bracket does not match visual indentation"),
    Rule("E125", "continuation line does not distinguish itself from next logical line"),
    Rule("E126", "continuation line over-indented for hanging indent"),
    Rule("E127", "continuation line over-indented for visual indent"),
    Rule("E128", "continuation line under-indented for visual indent")
  ]

  /** The catalog has 52 entries. */
  lemma CatalogSize()
    ensures |Errors| == 52
  {
  }

  /** E261 occurs twice, as distinct entries with different descriptions,
      so that rule is swept twice. */
  lemma E261Twice()
    ensures |Errors| > 23
    ensures Errors[19].id == Errors[23].id == "E261" && Errors[19].description != Errors[23].description
  {
  }

  /** E251 occurs twice, likewise. */
  lemma E251Twice()
    ensures |Errors| > 28
    ensures Errors[22].id == Errors[28].id == "E251" && Errors[22].description != Errors[28].description
  {
  }
}

=== FILE: common.dfy ===
/** The shared helpers of `src/common/__init__.py`: the observable events,
    the required-binaries check, `git_commit`, and the filters of
    `get_filelist`. Process launches, the `PATH` lookup and the directory
    walk are parameters. */
module Common {
  import opened Results
  import opened Text
  import opened Paths

  /** What the tool shows or does, in order. `message`/`error` output is split
      by purpose; a `Spawn` is a subprocess launch with its argument vector. */
  datatype Event =
    | Progress(text: string)        // per-rule notice of the sweep
    | Echo(argv: seq<string>)       // `message(" ".join(argv))` of a command
    | Output(text: string)          // captured formatter output
    | Summary(text: string)         // final modified count
    | Alert(text: string)           // `error(...)` line
    | Spawn(argv: seq<string>)      // a process is launched

  /** The echo of a command line, shown only when `shown` holds. */
  function Echoed(shown: bool, argv: seq<string>): seq<Event>
  {
    if shown then [Echo(argv)] else []
  }

  /** What a finished subprocess hands back. */
  datatype Completion = Completion(code: int, stdout: string, stderr: string)

  /** The exceptions that abort a run. `FormatterFailed` carries nothing
      because the formatter's stderr is merged into stdout, so the raised
      value is `None`. */
  datatype Failure =
    | Unreadable(path: string)      // `sha1_file` could not open the path
    | FormatterFailed               // the formatter exited nonzero
    | CommitFailed(errors: string)  // `git commit` exited nonzero

  /** Number of events satisfying `pred`. */
  function CountIf(events: seq<Event>, pred: Event -> bool): nat
  {
    if events == [] then 0
    else (if pred(events[0]) then 1 else 0) + CountIf(events[1..], pred)
  }

  lemma {:induction false} CountIfAppend(a: seq<Event>, b: seq<Event>, pred: Event -> bool)
    ensures CountIf(a + b, pred) == CountIf(a, pred) + CountIf(b, pred)
    decreases |a|
  {
    if a != [] {
      var ab := a + b;
      assert ab[0] == a[0];
      assert ab[1..] == a[1..] + b;
      CountIfAppend(a[1..], b, pred);
      assert CountIf(ab, pred) == (if pred(a[0]) then 1 else 0) + CountIf(ab[1..], pred);
    } else {
      assert a + b == b;
    }
  }

  lemma CountIfOne(e: Event, pred: Event -> bool)
    ensures CountIf([e], pred) == if pred(e) then 1 else 0
  {
    assert [e][1..] == [];
  }

  lemma CountIfNone(events: seq<Event>, pred: Event -> bool)
    requires forall k :: 0 <= k < |events| ==> !pred(events[k])
    ensures CountIf(events, pred) == 0
    decreases |events|
  {
    if events != [] {
      CountIfNone(events[1..], pred);
    }
  }

  predicate IsSpawn(e: Event)
  {
    e.Spawn?
  }

  /** A launch of `git commit`. */
  predicate IsCommit(e: Event)
  {
    e.Spawn? && |e.argv| >= 2 && e.argv[0] == "git" && e.argv[1] == "commit"
  }

  // ---------------------------------------------------------------------
  // test_for_required_binaries

  /** Outcome of the startup check: its error lines and the exit status, if
      the process exits. */
  datatype BinaryCheck = BinaryCheck(events: seq<Event>, exit: Option<int>)

  const MissingHeader := "Certain additional binaries are required to run:"

  function FoundLabel(b: bool): string
  {
    if b then "Found" else "Not found"
  }

  function AllFound(needed: seq<string>, found: string -> bool): (r: bool)
    ensures r <==> forall i :: 0 <= i < |needed| ==> found(needed[i])
  {
    if needed == [] then true else found(needed[0]) && AllFound(needed[1..], found)
  }

  /** Exits with status 1 exactly when some binary is missing, after one
      header line and one Found/Not found line per binary in order; when all
      are found it says nothing and returns. */
  function TestForRequiredBinaries(needed: seq<string>, found: string -> bool): (r: BinaryCheck)
    ensures r.exit.Some? <==> exists i :: 0 <= i < |needed| && !found(needed[i])
    ensures r.exit.None? ==> r.events == []
    ensures r.exit.Some? ==>
      && r.exit.value == 1
      && |r.events| == |needed| + 1
      && r.events[0] == Alert(MissingHeader)
      && forall i :: 0 <= i < |needed| ==>
           r.events[i + 1] == Alert("\t" + needed[i] + ": " + FoundLabel(found(needed[i])))
  {
    if AllFound(needed, found) then BinaryCheck([], None)
    else
      var report := seq(|needed|, i requires 0 <= i < |needed| =>
        Alert("\t" + needed[i] + ": " + FoundLabel(found(needed[i]))));
      BinaryCheck([Alert(MissingHeader)] + report, Some(1))
  }

  // ---------------------------------------------------------------------
  // git_commit

  /** The commit message `"<path>: <comment>"`. */
  function CommitMessage(path: string, comment: string): string
  {
    path + ": " + comment
  }

  /** The argument vector of `git_commit`. */
  function CommitArgv(path: string, comment: string, author: Option<string>): seq<string>
  {
    ["git", "commit", path, "-m", CommitMessage(path, comment)]
      + (if Truthy(author) then ["--author", author.value] else [])
  }

  /** What a commit argument vector asks for. */
  datatype CommitRequest = CommitRequest(path: string, comment: string, author: Option<string>)

  /** Reads a commit argument vector back; `None` when it is not one that
      `CommitArgv` can produce. */
  function ParseCommitArgv(argv: seq<string>): Option<CommitRequest>
  {
    if && (|argv| == 5 || |argv| == 7)
       && argv[0] == "git" && argv[1] == "commit" && argv[3] == "-m"
       && StartsWith(argv[4], argv[2] + ": ")
       && (|argv| == 7 ==> argv[5] == "--author" && argv[6] != "")
    then
      Some(CommitRequest(argv[2], argv[4][|argv[2]| + 2..],
                         if |argv| == 7 then Some(argv[6]) else None))
    else None
  }

  /** The commit command names exactly the one file, carries the comment
      behind `"<path>: "`, and carries an author exactly when one is truthy. */
  lemma CommitArgvRoundTrip(path: string, comment: string, author: Option<string>)
    ensures ParseCommitArgv(CommitArgv(path, comment, author))
         == Some(CommitRequest(path, comment, if Truthy(author) then author else None))
  {
    var argv := CommitArgv(path, comment, author);
    var msg := CommitMessage(path, comment);
    assert argv[4] == msg;
    assert msg[..|path + ": "|] == path + ": ";
    assert msg[|path| + 2..] == comment;
  }

  /** What a helper that may raise leaves behind: its events and whether it
      returned or raised. */
  datatype Effect = Effect(events: seq<Event>, result: Result<(), Failure>)

  /** `git_commit`: echo the command when dry-run or verbose; launch it unless
      dry-run; a nonzero exit prints "Error in <path>" and raises with the
      captured stderr. `git` answers for the process. */
  function GitCommit(path: string, comment: string, dryrun: bool, verbose: bool,
                     author: Option<string>, git: seq<string> -> Completion): (r: Effect)
    ensures (Echo(CommitArgv(path, comment, author)) in r.events) <==> (dryrun || verbose)
    ensures CountIf(r.events, IsSpawn) == (if dryrun then 0 else 1)
    ensures !dryrun ==> Spawn(CommitArgv(path, comment, author)) in r.events
    ensures CountIf(r.events, IsCommit) == (if dryrun then 0 else 1)
    ensures r.result.Failure? <==> !dryrun && git(CommitArgv(path, comment, author)).code != 0
    ensures r.result.Failure? ==>
      r.result.error == CommitFailed(git(CommitArgv(path, comment, author)).stderr)
    ensures forall k :: 0 <= k < |r.events| ==>
      !r.events[k].Progress? && !r.events[k].Summary? && !r.events[k].Output?
    ensures forall k :: 0 <= k < |r.events| && r.events[k].Spawn? ==>
      r.events[k] == Spawn(CommitArgv(path, comment, author))
    ensures Alert("Error in " + path) in r.events <==> r.result.Failure?
    ensures |r.events| == (if dryrun || verbose then 1 else 0)
                        + (if dryrun then 0 else if r.result.Failure? then 2 else 1)
    ensures verbose && !dryrun ==>
      && r.events[0] == Echo(CommitArgv(path, comment, author))
      && r.events[1] == Spawn(CommitArgv(path, comment, author))
    ensures r.result.Failure? ==> r.events[|r.events| - 1] == Alert("Error in " + path)
    ensures forall k :: 0 <= k < |r.events| ==>
      || r.events[k] == Echo(CommitArgv(path, comment, author))
      || r.events[k] == Spawn(CommitArgv(path, comment, author))
      || r.events[k] == Alert("Error in " + path)
  {
    var cmd := CommitArgv(path, comment, author);
    var log := if dryrun || verbose then [Echo(cmd)] else [];
    if dryrun then Effect(log, Success(()))
    else
      var c := git(cmd);
      var tail := Launched(cmd, path, c.code);
      CountIfAppend(log, tail, IsSpawn);
      CountIfAppend(log, tail, IsCommit);
      CountIfOne(Echo(cmd), IsSpawn);
      CountIfOne(Echo(cmd), IsCommit);
      assert IsCommit(Spawn(cmd));
      Effect(log + tail, if c.code != 0 then Failure(CommitFailed(c.stderr)) else Success(()))
  }

  /** The events of a launched command: the launch, then "Error in <path>"
      when it exits nonzero. */
  function Launched(cmd: seq<string>, path: string, code: int): (t: seq<Event>)
    ensures |t| > 0 && t[0] == Spawn(cmd)
    ensures CountIf(t, IsSpawn) == 1
    ensures CountIf(t, IsCommit) == CountIf([Spawn(cmd)], IsCommit)
    ensures Echo(cmd) !in t
    ensures Alert("Error in " + path) in t <==> code != 0
    ensures forall k :: 0 <= k < |t| ==> !t[k].Progress? && !t[k].Summary? && !t[k].Output?
    ensures forall k :: 0 <= k < |t| && t[k].Spawn? ==> t[k] == Spawn(cmd)
    ensures |t| == if code != 0 then 2 else 1
    ensures code != 0 ==> t[1] == Alert("Error in " + path)
  {
    var alert := Alert("Error in " + path);
    CountIfOne(alert, IsSpawn);
    CountIfOne(alert, IsCommit);
    CountIfOne(Spawn(cmd), IsSpawn);
    CountIfAppend([Spawn(cmd)], [alert], IsSpawn);
    CountIfAppend([Spawn(cmd)], [alert], IsCommit);
    if code != 0 then [Spawn(cmd), alert] else [Spawn(cmd)]
  }

  // ---------------------------------------------------------------------
  // get_filelist

  /** `ys` keeps some of the elements of `xs`, in their order. */
  ghost predicate IsSubsequence(ys: seq<string>, xs: seq<string>)
    decreases |xs|
  {
    if ys == [] then true
    else if xs == [] then false
    else (ys[0] == xs[0] && IsSubsequence(ys[1..], xs[1..])) || IsSubsequence(ys, xs[1..])
  }

  lemma {:induction false} SubsequenceTrans(zs: seq<string>, ys: seq<string>, xs: seq<string>)
    requires IsSubsequence(zs, ys) && IsSubsequence(ys, xs)
    ensures IsSubsequence(zs, xs)
    decreases |xs|
  {
    if zs != [] {
      assert ys != [] && xs != [];
      if ys[0] == xs[0] && IsSubsequence(ys[1..], xs[1..]) {
        if zs[0] == ys[0] && IsSubsequence(zs[1..], ys[1..]) {
          SubsequenceTrans(zs[1..], ys[1..], xs[1..]);
        } else {
          SubsequenceTrans(zs, ys[1..], xs[1..]);
        }
      } else {
        SubsequenceTrans(zs, ys, xs[1..]);
      }
    }
  }

  /** The extension test of `get_filelist`: no filter, or an exact match of
      the `splitext` extension. */
  predicate ExtMatches(p: string, ext: Option<string>)
  {
    ext.None? || Ext(p) == ext.value
  }

  /** What survives both filters. */
  predicate Kept(p: string, ext: Option<string>)
  {
    ExtMatches(p, ext) && !InEgg(p)
  }

  /** The elements of `xs` that `keep` accepts, in order. */
  function Filter(xs: seq<string>, keep: string -> bool): (r: seq<string>)
    ensures IsSubsequence(r, xs)
    ensures forall p :: multiset(r)[p] == if keep(p) then multiset(xs)[p] else 0
  {
    if xs == [] then []
    else
      var rest := Filter(xs[1..], keep);
      assert xs == [xs[0]] + xs[1..];
      if keep(xs[0]) then [xs[0]] + rest
      else
        assert IsSubsequence(rest, xs[1..]);
        rest
  }

  function ExtKeep(ext: Option<string>): string -> bool
  {
    p => ExtMatches(p, ext)
  }

  function EggKeep(): string -> bool
  {
    p => !InEgg(p)
  }

  /** The extension filter of `get_filelist`. */
  function ExtFilter(xs: seq<string>, ext: Option<string>): seq<string>
  {
    Filter(xs, ExtKeep(ext))
  }

  /** The egg-directory filter of `get_filelist`. */
  function EggFilter(xs: seq<string>): seq<string>
  {
    Filter(xs, EggKeep())
  }

  /** The entry `os.walk` yields for one directory. */
  datatype WalkEntry = WalkEntry(root: string, files: seq<string>)

  /** What the file system says about the start path: a regular file, or a
      directory with its recursive walk and its immediate entries. */
  datatype Target = RegularFile | Directory(walk: seq<WalkEntry>, entries: seq<string>)

  function Walked(walk: seq<WalkEntry>): seq<string>
  {
    if walk == [] then []
    else
      seq(|walk[0].files|, i requires 0 <= i < |walk[0].files| => PathJoin(walk[0].root, walk[0].files[i]))
        + Walked(walk[1..])
  }

  /** The unfiltered listing: the start path itself, every walked file joined
      to its root, or every immediate entry joined to the start path. */
  function RawListing(start: string, target: Target, recurse: bool): seq<string>
  {
    match target
    case RegularFile => [start]
    case Directory(walk, entries) =>
      if recurse then Walked(walk)
      else seq(|entries|, i requires 0 <= i < |entries| => PathJoin(start, entries[i]))
  }

  /** `get_filelist`: the raw listing with the extension filter and then the
      egg filter applied. The result keeps the listing's order and keeps each
      path exactly as often as the listing has it when it passes both
      filters, and never otherwise. */
  function GetFilelist(start: string, target: Target, recurse: bool, ext: Option<string>): (r: seq<string>)
    ensures IsSubsequence(r, RawListing(start, target, recurse))
    ensures forall p :: (multiset(r)[p]
      == if Kept(p, ext) then multiset(RawListing(start, target, recurse))[p] else 0)
    ensures forall p :: p in r ==> Kept(p, ext)
    ensures target.RegularFile? ==> r == if Kept(start, ext) then [start] else []
  {
    var raw := RawListing(start, target, recurse);
    var byExt := ExtFilter(raw, ext);
    var r := EggFilter(byExt);
    SubsequenceTrans(r, byExt, raw);
    assert forall p :: p in r ==> multiset(r)[p] > 0;
    r
  }

  lemma FilterCons(a: seq<string>, b: seq<string>, keep: string -> bool)
    requires |a| <= 1
    ensures Filter(a + b, keep) == Filter(a, keep) + Filter(b, keep)
  {
    if a != [] {
      var ab := a + b;
      assert ab[0] == a[0];
      assert ab[1..] == b;
      assert a[1..] == [];
      assert Filter(a, keep) == if keep(a[0]) then [a[0]] else [];
    } else {
      assert a + b == b;
    }
  }

  lemma {:induction false} FilterTwice(xs: seq<string>, keep: string -> bool)
    ensures Filter(Filter(xs, keep), keep) == Filter(xs, keep)
    decreases |xs|
  {
    if xs != [] {
      FilterTwice(xs[1..], keep);
      FilterCons(if keep(xs[0]) then [xs[0]] else [], Filter(xs[1..], keep), keep);
    }
  }

  lemma {:induction false} FiltersCommute(xs: seq<string>, f: string -> bool, g: string -> bool)
    ensures Filter(Filter(xs, f), g) == Filter(Filter(xs, g), f)
    decreases |xs|
  {
    if xs != [] {
      FiltersCommute(xs[1..], f, g);
      var h := [xs[0]];
      FilterCons(if f(xs[0]) then h else [], Filter(xs[1..], f), g);
      FilterCons(if g(xs[0]) then h else [], Filter(xs[1..], g), f);
    }
  }

  /** Filtering a filtered listing again changes nothing. */
  lemma FilterIdempotent(raw: seq<string>, ext: Option<string>)
    ensures EggFilter(ExtFilter(EggFilter(ExtFilter(raw, ext)), ext))
         == EggFilter(ExtFilter(raw, ext))
  {
    var e := ExtFilter(raw, ext);
    FiltersCommute(e, EggKeep(), ExtKeep(ext));
    FilterTwice(raw, ExtKeep(ext));
    FilterTwice(e, EggKeep());
  }
}

=== FILE: gitpep8.dfy ===
/** The sweep of `src/git_pep8.py`: for each rule of the catalog, in order,
    run the formatter restricted to that rule on every file, and commit each
    file whose content changed. The formatter and `git` are oracles; file
    contents stand in for their SHA-1 digests. */
module GitPep8 {
  import opened Results
  import opened Text
  import opened Common
  import opened Catalog

  /** The switches of `run_autopep8`. */
  datatype Options = Options(dryrun: bool, verbose: bool, autopep8: Option<string>, author: Option<string>)

  /** One formatter process: its exit code, its merged stdout/stderr, and the
      content it leaves in the file. */
  datatype ToolRun = ToolRun(code: int, output: string, content: string)

  /** The formatter oracle: rule code, path and current content to a run. */
  type Formatter = (string, string, string) -> ToolRun

  /** The files' current contents; a path absent here cannot be read. */
  type Files = map<string, string>

  /** What the `loop_params` generator does next: announce a rule (the
      `message` it prints while advancing), or hand out one (rule, file)
      pair, whose before-hash is read only when the pair is reached. */
  datatype Param = Notice(index: nat, total: nat, rule: Rule) | Visit(rule: Rule, path: string)

  function Visits(rule: Rule, files: seq<string>): seq<Param>
  {
    seq(|files|, j requires 0 <= j < |files| => Visit(rule, files[j]))
  }

  function ParamsFrom(rules: seq<Rule>, index: nat, total: nat, files: seq<string>): seq<Param>
    decreases |rules|
  {
    if rules == [] then []
    else [Notice(index, total, rules[0])] + Visits(rules[0], files)
         + ParamsFrom(rules[1..], index + 1, total, files)
  }

  /** `loop_params`: rule-major, numbering the rules from 1. */
  function LoopParams(rules: seq<Rule>, files: seq<string>): seq<Param>
  {
    ParamsFrom(rules, 1, |rules|, files)
  }

  /** `autopep8 or "autopep8"`. */
  function FormatterBinary(autopep8: Option<string>): string
  {
    if Truthy(autopep8) then autopep8.value else "autopep8"
  }

  /** The formatter command for one rule on one file. */
  function FormatterArgv(binary: string, id: string, path: string): seq<string>
  {
    [binary, "--in-place", "--verbose", "--select=" + id, path]
  }

  /** No formatter command is a commit command: they differ in their second
      argument. */
  lemma FormatterIsNoCommit(binary: string, id: string, path: string,
                            file: string, comment: string, author: Option<string>)
    ensures FormatterArgv(binary, id, path) != CommitArgv(file, comment, author)
  {
    assert FormatterArgv(binary, id, path)[1] == "--in-place";
    assert CommitArgv(file, comment, author)[1] == "commit";
  }

  datatype FormatterRequest = FormatterRequest(binary: string, id: string, path: string)

  /** Reads a formatter command back; `None` when it is not one that
      `FormatterArgv` can produce. */
  function ParseFormatterArgv(argv: seq<string>): Option<FormatterRequest>
  {
    if |argv| == 5 && argv[1] == "--in-place" && argv[2] == "--verbose"
       && StartsWith(argv[3], "--select=")
    then Some(FormatterRequest(argv[0], argv[3][9..], argv[4]))
    else None
  }

  /** The formatter command names the binary, selects exactly the one rule
      and edits exactly the one file in place. */
  lemma FormatterArgvRoundTrip(autopep8: Option<string>, id: string, path: string)
    ensures ParseFormatterArgv(FormatterArgv(FormatterBinary(autopep8), id, path))
         == Some(FormatterRequest(if Truthy(autopep8) then autopep8.value else "autopep8", id, path))
  {
    var sel := "--select=" + id;
    assert sel[..9] == "--select=";
    assert sel[9..] == id;
  }

  /** A launch of the formatter. */
  predicate IsFormatterRun(e: Event)
  {
    e.Spawn? && |e.argv| == 5 && e.argv[1] == "--in-place"
  }

  /** The comment of the commit made for a rule. */
  function Comment(rule: Rule): string
  {
    rule.id + " " + rule.description
  }

  /** `"{i} of {N}: {id} {desc}"`. */
  function NoticeText(index: nat, total: nat, rule: Rule): string
  {
    Decimal(index) + " of " + Decimal(total) + ": " + rule.id + " " + rule.description
  }

  /** `"# {i} files scanned/modified"`. */
  function SummaryText(count: nat): string
  {
    "# " + Decimal(count) + " files scanned/modified"
  }

  /** `run_command`: a nonzero exit raises (with no payload, since stderr is
      merged into the captured output); otherwise the output is returned. */
  function RunCommand(run: ToolRun): (r: Result<string, Failure>)
    ensures r.Success? <==> run.code == 0
    ensures r.Success? ==> r.value == run.output
    ensures r.Failure? ==> r.error == FormatterFailed
  {
    if run.code != 0 then Failure(FormatterFailed) else Success(run.output)
  }

  /** What one step of the sweep leaves behind; a success carries whether
      it committed. */
  datatype StepOut = StepOut(events: seq<Event>, fs: Files, result: Result<bool, Failure>)

  /** The part of one pair after the formatter exited: raise on a nonzero
      exit; otherwise, when the re-read content differs from the before
      content, show the output and commit the file. `fs` is the file state
      the formatter left. */
  function AfterFormat(o: Options, git: seq<string> -> Completion, rule: Rule, path: string,
                       before: string, run: ToolRun, fs: Files): (r: StepOut)
    requires !o.dryrun
    requires path in fs && fs[path] == run.content
    ensures r.fs == fs
    ensures CountIf(r.events, IsFormatterRun) == 0
    ensures r.result == Failure(FormatterFailed) <==> run.code != 0
    ensures r.result.Success? ==> CountIf(r.events, IsCommit) == (if r.result.value then 1 else 0)
    ensures r.result == Success(true) ==>
      Spawn(CommitArgv(path, Comment(rule), o.author)) in r.events && Output(run.output) in r.events
    ensures r.result == Success(true) <==>
      run.code == 0 && run.content != before && git(CommitArgv(path, Comment(rule), o.author)).code == 0
    ensures r.result == Success(false) <==> run.code == 0 && run.content == before
    ensures r.result.Failure? && run.code == 0 ==>
      r.result.error == CommitFailed(git(CommitArgv(path, Comment(rule), o.author)).stderr)
    ensures forall k :: 0 <= k < |r.events| ==>
      && !r.events[k].Progress? && !r.events[k].Summary?
      && (r.events[k].Output? ==> run.code == 0 && run.content != before)
    ensures run.code != 0 || run.content == before ==> r.events == []
    ensures run.code == 0 && run.content != before ==>
      && |r.events| > 0 && r.events[0] == Output(run.output)
      && (Echo(CommitArgv(path, Comment(rule), o.author)) in r.events <==> o.verbose)
    ensures r.result.Failure? && r.result.error.CommitFailed? ==>
      |r.events| > 0 && r.events[|r.events| - 1] == Alert("Error in " + path)
    ensures run.code == 0 && run.content != before ==>
      r.events == [Output(run.output)] + GitCommit(path, Comment(rule), false, o.verbose, o.author, git).events
    ensures CountIf(r.events, IsSpawn) == CountIf(r.events, IsCommit)
  {
    match RunCommand(run)
    case Failure(e) => StepOut([], fs, Failure(e))
    case Success(output) =>
      if fs[path] == before then StepOut([], fs, Success(false))
      else ShowAndCommit(o, git, rule, path, output, fs)
  }

  /** A changed file: show the formatter's output, then commit the file with
      the rule's comment. */
  function ShowAndCommit(o: Options, git: seq<string> -> Completion, rule: Rule, path: string,
                         output: string, fs: Files): (r: StepOut)
    requires !o.dryrun
    ensures r.fs == fs
    ensures |r.events| > 0 && r.events[0] == Output(output)
    ensures forall k :: 0 <= k < |r.events| ==>
      && !r.events[k].Progress? && !r.events[k].Summary?
      && (r.events[k].Output? ==> k == 0)
    ensures CountIf(r.events, IsFormatterRun) == 0
    ensures CountIf(r.events, IsCommit) == 1
    ensures Spawn(CommitArgv(path, Comment(rule), o.author)) in r.events
    ensures Echo(CommitArgv(path, Comment(rule), o.author)) in r.events <==> o.verbose
    ensures r.result == Success(true) <==> git(CommitArgv(path, Comment(rule), o.author)).code == 0
    ensures r.result != Success(true) ==>
      r.result == Failure(CommitFailed(git(CommitArgv(path, Comment(rule), o.author)).stderr))
    ensures r.result != Success(true) ==> r.events[|r.events| - 1] == Alert("Error in " + path)
    ensures r.events == [Output(output)] + GitCommit(path, Comment(rule), false, o.verbose, o.author, git).events
    ensures CountIf(r.events, IsSpawn) == 1
  {
    var c := GitCommit(path, Comment(rule), o.dryrun, o.verbose, o.author, git);
    CountIfNone(c.events, IsFormatterRun);
    var result := if c.result.Failure? then Failure(c.result.error) else Success(true);
    Preceded(Output(output), StepOut(c.events, fs, result))
  }

  /** The launched part of one pair: start the formatter on the file and
      continue with `AfterFormat` on the content it left. */
  function Launch(o: Options, format: Formatter, git: seq<string> -> Completion,
                  rule: Rule, path: string, fs: Files): (r: StepOut)
    requires !o.dryrun && path in fs
    ensures |r.events| > 0 && r.events[0] == Spawn(FormatterArgv(FormatterBinary(o.autopep8), rule.id, path))
    ensures CountIf(r.events, IsFormatterRun) == 1
    ensures r.fs == fs[path := format(rule.id, path, fs[path]).content]
    ensures r.result == Failure(FormatterFailed) <==> format(rule.id, path, fs[path]).code != 0
    ensures r.result.Success? ==> CountIf(r.events, IsCommit) == (if r.result.value then 1 else 0)
    ensures r.result == Success(true) <==>
      && format(rule.id, path, fs[path]).code == 0
      && format(rule.id, path, fs[path]).content != fs[path]
      && git(CommitArgv(path, Comment(rule), o.author)).code == 0
    ensures forall k :: 0 <= k < |r.events| ==> !r.events[k].Progress? && !r.events[k].Summary?
    ensures r.result.Failure? && r.result.error.CommitFailed? ==>
      r.events[|r.events| - 1] == Alert("Error in " + path)
    ensures CountIf(r.events, IsSpawn) == 1 + CountIf(r.events, IsCommit)
  {
    var cmd := FormatterArgv(FormatterBinary(o.autopep8), rule.id, path);
    var run := format(rule.id, path, fs[path]);
    Preceded(Spawn(cmd), AfterFormat(o, git, rule, path, fs[path], run, fs[path := run.content]))
  }

  /** The step `s` preceded by the event `e`: one more formatter run when
      `e` launches the formatter, one more commit when it launches a commit. */
  function Preceded(e: Event, s: StepOut): (r: StepOut)
    ensures r.fs == s.fs && r.result == s.result
    ensures r.events == [e] + s.events
    ensures |r.events| == |s.events| + 1 && r.events[0] == e
    ensures forall k :: 0 <= k < |s.events| ==> r.events[k + 1] == s.events[k]
    ensures CountIf(r.events, IsFormatterRun) == CountIf(s.events, IsFormatterRun) + (if IsFormatterRun(e) then 1 else 0)
    ensures CountIf(r.events, IsCommit) == CountIf(s.events, IsCommit) + (if IsCommit(e) then 1 else 0)
    ensures CountIf(r.events, IsSpawn) == CountIf(s.events, IsSpawn) + (if IsSpawn(e) then 1 else 0)
  {
    CountIfAppend([e], s.events, IsFormatterRun);
    CountIfAppend([e], s.events, IsCommit);
    CountIfOne(e, IsFormatterRun);
    CountIfOne(e, IsCommit);
    CountIfAppend([e], s.events, IsSpawn);
    CountIfOne(e, IsSpawn);
    StepOut([e] + s.events, s.fs, s.result)
  }

  /** One (rule, file) pair of `run_autopep8`: read the before-content, echo
      the command when verbose or dry-run, and unless dry-run run the
      formatter and continue with `AfterFormat`. */
  function DoVisit(o: Options, format: Formatter, git: seq<string> -> Completion,
                   rule: Rule, path: string, fs: Files): (r: StepOut)
    ensures path !in fs ==> r == StepOut([], fs, Failure(Unreadable(path)))
    ensures o.dryrun ==> CountIf(r.events, IsSpawn) == 0 && r.fs == fs
    ensures o.dryrun && path in fs ==> r.result == Success(false)
    ensures !o.dryrun && path in fs ==>
      && CountIf(r.events, IsFormatterRun) == 1
      && r.fs == fs[path := format(rule.id, path, fs[path]).content]
      && (r.result == Failure(FormatterFailed) <==> format(rule.id, path, fs[path]).code != 0)
    ensures r.result.Success? ==> CountIf(r.events, IsCommit) == (if r.result.value then 1 else 0)
    ensures r.result == Success(true) <==>
      && !o.dryrun && path in fs
      && format(rule.id, path, fs[path]).code == 0
      && format(rule.id, path, fs[path]).content != fs[path]
      && git(CommitArgv(path, Comment(rule), o.author)).code == 0
    ensures forall k :: 0 <= k < |r.events| ==> !r.events[k].Progress? && !r.events[k].Summary?
    ensures !o.dryrun && path in fs ==> CountIf(r.events, IsSpawn) == 1 + CountIf(r.events, IsCommit)
  {
    if path !in fs then StepOut([], fs, Failure(Unreadable(path)))
    else
      var cmd := FormatterArgv(FormatterBinary(o.autopep8), rule.id, path);
      var log := if o.verbose || o.dryrun then [Echo(cmd)] else [];
      if o.dryrun then
        CountIfNone(log, IsSpawn);
        StepOut(log, fs, Success(false))
      else Logged(log, Launch(o, format, git, rule, path, fs))
  }

  /** The step `s` behind echo lines: it launches what `s` launches and ends
      as `s` does. */
  function Logged(log: seq<Event>, s: StepOut): (r: StepOut)
    requires forall k :: 0 <= k < |log| ==> log[k].Echo?
    ensures r.fs == s.fs && r.result == s.result && r.events == log + s.events
    ensures CountIf(r.events, IsFormatterRun) == CountIf(s.events, IsFormatterRun)
    ensures CountIf(r.events, IsCommit) == CountIf(s.events, IsCommit)
    ensures CountIf(r.events, IsSpawn) == CountIf(s.events, IsSpawn)
    ensures (forall k :: 0 <= k < |s.events| ==> !s.events[k].Progress? && !s.events[k].Summary?) ==>
      forall k :: 0 <= k < |r.events| ==> !r.events[k].Progress? && !r.events[k].Summary?
  {
    CountIfNone(log, IsSpawn);
    CountIfNone(log, IsFormatterRun);
    CountIfNone(log, IsCommit);
    CountIfAppend(log, s.events, IsFormatterRun);
    CountIfAppend(log, s.events, IsCommit);
    CountIfAppend(log, s.events, IsSpawn);
    StepOut(log + s.events, s.fs, s.result)
  }

  /** The commands a pair shows and launches: the formatter command is
      echoed first exactly when verbose or dry-run, it is launched unless
      dry-run, and a committing pair shows the formatter's output and
      launches the commit command for that one file with the rule's comment. */
  lemma VisitCommands(o: Options, format: Formatter, git: seq<string> -> Completion,
                      rule: Rule, path: string, fs: Files)
    requires path in fs
    ensures var r := DoVisit(o, format, git, rule, path, fs);
      var cmd := FormatterArgv(FormatterBinary(o.autopep8), rule.id, path);
      && ((|r.events| > 0 && r.events[0] == Echo(cmd)) <==> (o.verbose || o.dryrun))
      && (!o.dryrun ==> Spawn(cmd) in r.events)
      && (r.result == Success(true) ==>
            && Output(format(rule.id, path, fs[path]).output) in r.events
            && Spawn(CommitArgv(path, Comment(rule), o.author)) in r.events)
  {
    var r := DoVisit(o, format, git, rule, path, fs);
    var cmd := FormatterArgv(FormatterBinary(o.autopep8), rule.id, path);
    var log := if o.verbose || o.dryrun then [Echo(cmd)] else [];
    VisitEvents(o, format, git, rule, path, fs);
    if !o.dryrun {
      var run := format(rule.id, path, fs[path]);
      var a := AfterFormat(o, git, rule, path, fs[path], run, fs[path := run.content]);
      var head := log + [Spawn(cmd)];
      VisitLaunched(o, format, git, rule, path, fs);
      assert r.events == head + a.events;
      assert r.events[|log|] == Spawn(cmd);
    }
  }

  /** What a pair shows beyond the formatter command: the formatter's output
      appears exactly when the pair is not a dry run, the formatter succeeded
      and the content changed; the commit command is echoed exactly when
      besides that the run is verbose. */
  lemma VisitShows(o: Options, format: Formatter, git: seq<string> -> Completion,
                   rule: Rule, path: string, fs: Files)
    requires path in fs
    ensures var r := DoVisit(o, format, git, rule, path, fs);
      var run := format(rule.id, path, fs[path]);
      var changed := !o.dryrun && run.code == 0 && run.content != fs[path];
      && (forall k :: 0 <= k < |r.events| && r.events[k].Output? ==> changed)
      && (changed ==> Output(run.output) in r.events)
      && (Echo(CommitArgv(path, Comment(rule), o.author)) in r.events <==> changed && o.verbose)
  {
    var run := format(rule.id, path, fs[path]);
    if !o.dryrun && run.code == 0 && run.content != fs[path] {
      VisitChanged(o, format, git, rule, path, fs);
    } else {
      var cmd := FormatterArgv(FormatterBinary(o.autopep8), rule.id, path);
      FormatterIsNoCommit(FormatterBinary(o.autopep8), rule.id, path, path, Comment(rule), o.author);
      VisitQuiet(o, format, git, rule, path, fs);
    }
  }

  /** A launched pair that changed the file shows the formatter's output,
      and echoes the commit command exactly when verbose. */
  lemma VisitChanged(o: Options, format: Formatter, git: seq<string> -> Completion,
                     rule: Rule, path: string, fs: Files)
    requires path in fs && !o.dryrun
    requires format(rule.id, path, fs[path]).code == 0
    requires format(rule.id, path, fs[path]).content != fs[path]
    ensures var r := DoVisit(o, format, git, rule, path, fs);
      && Output(format(rule.id, path, fs[path]).output) in r.events
      && (Echo(CommitArgv(path, Comment(rule), o.author)) in r.events <==> o.verbose)
  {
    var cmd := FormatterArgv(FormatterBinary(o.autopep8), rule.id, path);
    var log := if o.verbose then [Echo(cmd)] else [];
    VisitEvents(o, format, git, rule, path, fs);
    LaunchChanged(o, format, git, rule, path, fs);
    FormatterIsNoCommit(FormatterBinary(o.autopep8), rule.id, path, path, Comment(rule), o.author);
    Behind(log, Launch(o, format, git, rule, path, fs).events, Echo(CommitArgv(path, Comment(rule), o.author)));
  }

  /** The same for the launched part of the pair. */
  lemma LaunchChanged(o: Options, format: Formatter, git: seq<string> -> Completion,
                      rule: Rule, path: string, fs: Files)
    requires path in fs && !o.dryrun
    requires format(rule.id, path, fs[path]).code == 0
    requires format(rule.id, path, fs[path]).content != fs[path]
    ensures var l := Launch(o, format, git, rule, path, fs);
      && Output(format(rule.id, path, fs[path]).output) in l.events
      && (Echo(CommitArgv(path, Comment(rule), o.author)) in l.events <==> o.verbose)
  {
    var run := format(rule.id, path, fs[path]);
    var cmd := FormatterArgv(FormatterBinary(o.autopep8), rule.id, path);
    LaunchEvents(o, format, git, rule, path, fs);
    FormatterIsNoCommit(FormatterBinary(o.autopep8), rule.id, path, path, Comment(rule), o.author);
    ChangedShows(o, git, rule, path, fs[path], run, fs[path := run.content], [Spawn(cmd)]);
  }

  /** After a formatter run that changed the file, whatever came before:
      the output is shown, and the commit command is echoed exactly when
      verbose. */
  lemma ChangedShows(o: Options, git: seq<string> -> Completion, rule: Rule, path: string,
                     before: string, run: ToolRun, fs: Files, head: seq<Event>)
    requires !o.dryrun && path in fs && fs[path] == run.content
    requires run.code == 0 && run.content != before
    requires Echo(CommitArgv(path, Comment(rule), o.author)) !in head
    ensures var events := head + AfterFormat(o, git, rule, path, before, run, fs).events;
      && Output(run.output) in events
      && (Echo(CommitArgv(path, Comment(rule), o.author)) in events <==> o.verbose)
  {
    var a := AfterFormat(o, git, rule, path, before, run, fs);
    Behind(head, a.events, Echo(CommitArgv(path, Comment(rule), o.author)));
  }

  /** What `tail` holds is what `head + tail` holds, for an event not in
      `head`; the first event of a non-empty `tail` is among them. */
  lemma Behind(head: seq<Event>, tail: seq<Event>, e: Event)
    requires e !in head
    ensures e in head + tail <==> e in tail
    ensures |tail| > 0 ==> tail[0] in head + tail
  {
    if |tail| > 0 {
      assert (head + tail)[|head|] == tail[0];
    }
  }

  /** A pair that is a dry run, or whose formatter failed or left the file
      as it was, shows only the echo and the launch of the formatter command. */
  lemma VisitQuiet(o: Options, format: Formatter, git: seq<string> -> Completion,
                   rule: Rule, path: string, fs: Files)
    requires path in fs
    requires var run := format(rule.id, path, fs[path]);
      o.dryrun || run.code != 0 || run.content == fs[path]
    ensures var cmd := FormatterArgv(FormatterBinary(o.autopep8), rule.id, path);
      var log := if o.verbose || o.dryrun then [Echo(cmd)] else [];
      DoVisit(o, format, git, rule, path, fs).events == if o.dryrun then log else log + [Spawn(cmd)]
  {
    VisitEvents(o, format, git, rule, path, fs);
    if !o.dryrun {
      var cmd := FormatterArgv(FormatterBinary(o.autopep8), rule.id, path);
      var log := if o.verbose then [Echo(cmd)] else [];
      var run := format(rule.id, path, fs[path]);
      var a := AfterFormat(o, git, rule, path, fs[path], run, fs[path := run.content]);
      assert a.events == [];
      assert Launch(o, format, git, rule, path, fs).events == [Spawn(cmd)] by {
        LaunchEvents(o, format, git, rule, path, fs);
      }
    }
  }

  /** The events of a launched pair: the optional echo and the launch of the
      formatter, then what follows its run. */
  lemma VisitLaunched(o: Options, format: Formatter, git: seq<string> -> Completion,
                      rule: Rule, path: string, fs: Files)
    requires !o.dryrun && path in fs
    ensures var cmd := FormatterArgv(FormatterBinary(o.autopep8), rule.id, path);
      var run := format(rule.id, path, fs[path]);
      DoVisit(o, format, git, rule, path, fs).events
        == ((if o.verbose then [Echo(cmd)] else []) + [Spawn(cmd)])
           + AfterFormat(o, git, rule, path, fs[path], run, fs[path := run.content]).events
  {
    var cmd := FormatterArgv(FormatterBinary(o.autopep8), rule.id, path);
    var run := format(rule.id, path, fs[path]);
    var a := AfterFormat(o, git, rule, path, fs[path], run, fs[path := run.content]);
    var log: seq<Event> := if o.verbose then [Echo(cmd)] else [];
    VisitEvents(o, format, git, rule, path, fs);
    LaunchEvents(o, format, git, rule, path, fs);
    assert log + ([Spawn(cmd)] + a.events) == (log + [Spawn(cmd)]) + a.events;
  }

  /** A launched pair: the formatter launch, then what follows the run. */
  lemma LaunchEvents(o: Options, format: Formatter, git: seq<string> -> Completion,
                     rule: Rule, path: string, fs: Files)
    requires !o.dryrun && path in fs
    ensures var run := format(rule.id, path, fs[path]);
      var a := AfterFormat(o, git, rule, path, fs[path], run, fs[path := run.content]);
      Launch(o, format, git, rule, path, fs)
        == StepOut([Spawn(FormatterArgv(FormatterBinary(o.autopep8), rule.id, path))] + a.events, a.fs, a.result)
  {
  }

  /** The events of a readable pair: the echo of the formatter command when
      verbose or dry-run, then unless dry-run what the launch does. */
  lemma VisitEvents(o: Options, format: Formatter, git: seq<string> -> Completion,
                    rule: Rule, path: string, fs: Files)
    requires path in fs
    ensures var log := if o.verbose || o.dryrun then [Echo(FormatterArgv(FormatterBinary(o.autopep8), rule.id, path))] else [];
      DoVisit(o, format, git, rule, path, fs).events
        == if o.dryrun then log else log + Launch(o, format, git, rule, path, fs).events
  {
  }

  /** Outside dry-run a readable pair ends in exactly one of four ways: the
      formatter fails, the file is unchanged, the commit succeeds, or the
      commit fails with `git`'s error output. */
  lemma VisitOutcome(o: Options, format: Formatter, git: seq<string> -> Completion,
                     rule: Rule, path: string, fs: Files)
    requires !o.dryrun && path in fs
    ensures var run := format(rule.id, path, fs[path]);
      var g := git(CommitArgv(path, Comment(rule), o.author));
      var r := DoVisit(o, format, git, rule, path, fs);
      && (run.code != 0 ==> r.result == Failure(FormatterFailed))
      && (run.code == 0 && run.content == fs[path] ==> r.result == Success(false))
      && (run.code == 0 && run.content != fs[path] ==>
            r.result == if g.code == 0 then Success(true) else Failure(CommitFailed(g.stderr)))
  {
    var run := format(rule.id, path, fs[path]);
    var a := AfterFormat(o, git, rule, path, fs[path], run, fs[path := run.content]);
    assert Launch(o, format, git, rule, path, fs).result == a.result;
  }

  /** A pair whose commit failed ends with "Error in <path>", and leaves the
      formatter's rewrite of the file in place. */
  lemma VisitCommitFailed(o: Options, format: Formatter, git: seq<string> -> Completion,
                          rule: Rule, path: string, fs: Files)
    requires !o.dryrun && path in fs
    requires format(rule.id, path, fs[path]).code == 0
    requires format(rule.id, path, fs[path]).content != fs[path]
    requires git(CommitArgv(path, Comment(rule), o.author)).code != 0
    ensures var r := DoVisit(o, format, git, rule, path, fs);
      && r.result == Failure(CommitFailed(git(CommitArgv(path, Comment(rule), o.author)).stderr))
      && |r.events| > 0 && r.events[|r.events| - 1] == Alert("Error in " + path)
      && r.fs == fs[path := format(rule.id, path, fs[path]).content]
  {
    var l := Launch(o, format, git, rule, path, fs);
    var log := if o.verbose then [Echo(FormatterArgv(FormatterBinary(o.autopep8), rule.id, path))] else [];
    VisitEvents(o, format, git, rule, path, fs);
    VisitLaunchResult(o, format, git, rule, path, fs);
    VisitOutcome(o, format, git, rule, path, fs);
    LastOf(log, l.events);
  }

  /** The launch of a pair that changed its file and committed it. */
  lemma LaunchTrace(o: Options, format: Formatter, git: seq<string> -> Completion,
                    rule: Rule, path: string, fs: Files)
    requires !o.dryrun && path in fs
    requires format(rule.id, path, fs[path]).code == 0
    requires format(rule.id, path, fs[path]).content != fs[path]
    requires git(CommitArgv(path, Comment(rule), o.author)).code == 0
    ensures var cmd := FormatterArgv(FormatterBinary(o.autopep8), rule.id, path);
      var commit := CommitArgv(path, Comment(rule), o.author);
      Launch(o, format, git, rule, path, fs).events
        == [Spawn(cmd), Output(format(rule.id, path, fs[path]).output)]
           + (Echoed(o.verbose, commit) + [Spawn(commit)])
  {
    var cmd := FormatterArgv(FormatterBinary(o.autopep8), rule.id, path);
    var run := format(rule.id, path, fs[path]);
    var fs' := fs[path := run.content];
    var a := AfterFormat(o, git, rule, path, fs[path], run, fs');
    var tail := Echoed(o.verbose, CommitArgv(path, Comment(rule), o.author))
      + [Spawn(CommitArgv(path, Comment(rule), o.author))];
    assert a.events == [Output(run.output)] + tail by {
      AfterFormatTrace(o, git, rule, path, fs[path], run, fs');
    }
    assert Launch(o, format, git, rule, path, fs).events == [Spawn(cmd)] + a.events by {
      LaunchEvents(o, format, git, rule, path, fs);
    }
    ConsTwo(Spawn(cmd), Output(run.output), tail);
  }

  lemma ConsTwo(x: Event, y: Event, t: seq<Event>)
    ensures [x] + ([y] + t) == [x, y] + t
  {
  }

  /** What follows a formatter run that changed the file and whose commit
      `git` accepts: its output, then the commit. */
  lemma AfterFormatTrace(o: Options, git: seq<string> -> Completion, rule: Rule,
                         path: string, before: string, run: ToolRun, fs: Files)
    requires !o.dryrun && run.code == 0 && run.content != before
    requires path in fs && fs[path] == run.content
    requires git(CommitArgv(path, Comment(rule), o.author)).code == 0
    ensures var commit := CommitArgv(path, Comment(rule), o.author);
      AfterFormat(o, git, rule, path, before, run, fs).events
        == [Output(run.output)] + (Echoed(o.verbose, commit) + [Spawn(commit)])
  {
    CommitTrace(path, Comment(rule), o.verbose, o.author, git);
  }

  /** A commit that `git` accepts: the command echoed when verbose, then
      launched. */
  lemma CommitTrace(path: string, comment: string, verbose: bool,
                    author: Option<string>, git: seq<string> -> Completion)
    requires git(CommitArgv(path, comment, author)).code == 0
    ensures var cmd := CommitArgv(path, comment, author);
      GitCommit(path, comment, false, verbose, author, git)
        == Effect(Echoed(verbose, cmd) + [Spawn(cmd)], Success(()))
  {
    var cmd := CommitArgv(path, comment, author);
    var c := GitCommit(path, comment, false, verbose, author, git);
    if !verbose {
      assert c.events[0] == Spawn(cmd);
    }
  }

  /** Outside dry-run a readable pair ends as its launch does. */
  lemma VisitLaunchResult(o: Options, format: Formatter, git: seq<string> -> Completion,
                          rule: Rule, path: string, fs: Files)
    requires !o.dryrun && path in fs
    ensures DoVisit(o, format, git, rule, path, fs).result == Launch(o, format, git, rule, path, fs).result
  {
  }

  /** Prepending leaves the last element where it was. */
  lemma LastOf(head: seq<Event>, tail: seq<Event>)
    requires |tail| > 0
    ensures (head + tail)[|head + tail| - 1] == tail[|tail| - 1]
  {
  }

  /** One step of the sweep: a rule notice, or one (rule, file) pair. */
  function DoStep(o: Options, format: Formatter, git: seq<string> -> Completion,
                  p: Param, fs: Files): StepOut
  {
    match p
    case Notice(index, total, rule) => StepOut([Progress(NoticeText(index, total, rule))], fs, Success(false))
    case Visit(rule, path) => DoVisit(o, format, git, rule, path, fs)
  }

  /** A run so far: its events, the files as left, and the modified count,
      or the failure that aborted it. */
  datatype Run = Run(events: seq<Event>, fs: Files, result: Result<nat, Failure>)

  /** The loop body of `run_autopep8` folded over the generator's steps,
      threading the file contents and the counter; the first failure ends
      the fold. */
  function Sweep(o: Options, format: Formatter, git: seq<string> -> Completion,
                 steps: seq<Param>, fs: Files, count: nat): Run
    decreases |steps|
  {
    if steps == [] then Run([], fs, Success(count))
    else
      var s := DoStep(o, format, git, steps[0], fs);
      if s.result.Failure? then Run(s.events, s.fs, Failure(s.result.error))
      else
        var rest := Sweep(o, format, git, steps[1..], s.fs, if s.result.value then count + 1 else count);
        Run(s.events + rest.events, rest.fs, rest.result)
  }

  /** `run_autopep8` from the file list on: the sweep, then the summary line
      when (and only when) nothing raised. */
  function RunOnFiles(o: Options, format: Formatter, git: seq<string> -> Completion,
                      rules: seq<Rule>, files: seq<string>, fs: Files): Run
  {
    var r := Sweep(o, format, git, LoopParams(rules, files), fs, 0);
    if r.result.Success? then Run(r.events + [Summary(SummaryText(r.result.value))], r.fs, r.result)
    else r
  }

  /** `run_autopep8`: list the files, then sweep them. */
  function RunAutopep8(o: Options, format: Formatter, git: seq<string> -> Completion,
                       rules: seq<Rule>, start: string, target: Target, recurse: bool,
                       ext: Option<string>, fs: Files): Run
  {
    RunOnFiles(o, format, git, rules, GetFilelist(start, target, recurse, ext), fs)
  }
}

=== FILE: gitpep8_props.dfy ===
/** Properties of the sweep of `src/git_pep8.py` over whole runs: how the
    generator orders its steps, that failures abort, that the count is the
    number of commits, that dry-run has no effect, and what the files hold
    afterwards. */
module GitPep8Props {
  import opened Results
  import opened Text
  import opened Common
  import opened Catalog
  import opened GitPep8

  // ---------------------------------------------------------------------
  // Projections of steps and events

  /** The texts of the progress notices among the events, in order. */
  function ProgressTexts(events: seq<Event>): seq<string>
  {
    if events == [] then []
    else (if events[0].Progress? then [events[0].text] else []) + ProgressTexts(events[1..])
  }

  /** The argument vectors of the formatter launches among the events, in order. */
  function FormatterCalls(events: seq<Event>): seq<seq<string>>
  {
    if events == [] then []
    else (if IsFormatterRun(events[0]) then [events[0].argv] else []) + FormatterCalls(events[1..])
  }

  /** The notice texts the steps announce, in order. */
  function NoticeTexts(steps: seq<Param>): seq<string>
  {
    if steps == [] then []
    else (match steps[0]
          case Notice(i, n, rule) => [NoticeText(i, n, rule)]
          case Visit(_, _) => []) + NoticeTexts(steps[1..])
  }

  /** The (rule, path) pairs the steps hand out, in order. */
  function PairsOf(steps: seq<Param>): seq<(Rule, string)>
  {
    if steps == [] then []
    else (match steps[0]
          case Notice(_, _, _) => []
          case Visit(rule, path) => [(rule, path)]) + PairsOf(steps[1..])
  }

  lemma {:induction false} ProgressTextsAppend(a: seq<Event>, b: seq<Event>)
    ensures ProgressTexts(a + b) == ProgressTexts(a) + ProgressTexts(b)
    decreases |a|
  {
    if a == [] {
      assert a + b == b;
    } else {
      assert (a + b)[0] == a[0];
      assert (a + b)[1..] == a[1..] + b;
      ProgressTextsAppend(a[1..], b);
    }
  }

  lemma {:induction false} FormatterCallsAppend(a: seq<Event>, b: seq<Event>)
    ensures FormatterCalls(a + b) == FormatterCalls(a) + FormatterCalls(b)
    decreases |a|
  {
    if a == [] {
      assert a + b == b;
    } else {
      assert (a + b)[0] == a[0];
      assert (a + b)[1..] == a[1..] + b;
      FormatterCallsAppend(a[1..], b);
    }
  }

  lemma {:induction false} NoticeTextsAppend(a: seq<Param>, b: seq<Param>)
    ensures NoticeTexts(a + b) == NoticeTexts(a) + NoticeTexts(b)
    decreases |a|
  {
    if a == [] {
      assert a + b == b;
    } else {
      assert (a + b)[0] == a[0];
      assert (a + b)[1..] == a[1..] + b;
      NoticeTextsAppend(a[1..], b);
    }
  }

  lemma {:induction false} PairsOfAppend(a: seq<Param>, b: seq<Param>)
    ensures PairsOf(a + b) == PairsOf(a) + PairsOf(b)
    decreases |a|
  {
    if a == [] {
      assert a + b == b;
    } else {
      assert (a + b)[0] == a[0];
      assert (a + b)[1..] == a[1..] + b;
      PairsOfAppend(a[1..], b);
    }
  }

  lemma NoProgress(events: seq<Event>)
    requires forall k :: 0 <= k < |events| ==> !events[k].Progress?
    ensures ProgressTexts(events) == []
    decreases |events|
  {
    if events != [] {
      NoProgress(events[1..]);
    }
  }

  lemma NoFormatterCalls(events: seq<Event>)
    requires CountIf(events, IsFormatterRun) == 0
    ensures FormatterCalls(events) == []
    decreases |events|
  {
    if events != [] {
      NoFormatterCalls(events[1..]);
    }
  }

  // ---------------------------------------------------------------------
  // The generator

  lemma {:induction false} VisitsProject(rule: Rule, files: seq<string>)
    ensures NoticeTexts(Visits(rule, files)) == []
    ensures PairsOf(Visits(rule, files)) == seq(|files|, j requires 0 <= j < |files| => (rule, files[j]))
    decreases |files|
  {
    if files != [] {
      var v := Visits(rule, files);
      assert v[1..] == Visits(rule, files[1..]);
      VisitsProject(rule, files[1..]);
    }
  }

  lemma {:induction false} ParamsFromNotices(rules: seq<Rule>, index: nat, total: nat, files: seq<string>)
    ensures NoticeTexts(ParamsFrom(rules, index, total, files))
         == seq(|rules|, k requires 0 <= k < |rules| => NoticeText(index + k, total, rules[k]))
    decreases |rules|
  {
    if rules != [] {
      var head := [Notice(index, total, rules[0])];
      var tail := ParamsFrom(rules[1..], index + 1, total, files);
      NoticeTextsAppend(head + Visits(rules[0], files), tail);
      NoticeTextsAppend(head, Visits(rules[0], files));
      VisitsProject(rules[0], files);
      assert NoticeTexts(head) == [NoticeText(index, total, rules[0])] by {
        assert head[1..] == [];
      }
      ParamsFromNotices(rules[1..], index + 1, total, files);
    }
  }

  /** `loop_params` announces every rule exactly once, in catalog order,
      numbered 1 to N out of N, whatever the file list (also when empty). */
  lemma LoopParamsNotices(rules: seq<Rule>, files: seq<string>)
    ensures NoticeTexts(LoopParams(rules, files))
         == seq(|rules|, k requires 0 <= k < |rules| => NoticeText(k + 1, |rules|, rules[k]))
  {
    ParamsFromNotices(rules, 1, |rules|, files);
  }

  /** Every rule paired with every file, rule-major. */
  function RuleMajor(rules: seq<Rule>, files: seq<string>): seq<(Rule, string)>
    decreases |rules|
  {
    if rules == [] then []
    else seq(|files|, j requires 0 <= j < |files| => (rules[0], files[j])) + RuleMajor(rules[1..], files)
  }

  lemma {:induction false} ParamsFromPairs(rules: seq<Rule>, index: nat, total: nat, files: seq<string>)
    ensures PairsOf(ParamsFrom(rules, index, total, files)) == RuleMajor(rules, files)
    decreases |rules|
  {
    if rules != [] {
      var head := [Notice(index, total, rules[0])];
      var tail := ParamsFrom(rules[1..], index + 1, total, files);
      PairsOfAppend(head + Visits(rules[0], files), tail);
      PairsOfAppend(head, Visits(rules[0], files));
      VisitsProject(rules[0], files);
      assert PairsOf(head) == [] by {
        assert head[1..] == [];
      }
      ParamsFromPairs(rules[1..], index + 1, total, files);
    }
  }

  /** The position of rule `i` on file `j` in the rule-major product. */
  lemma {:induction false} RuleMajorAt(rules: seq<Rule>, files: seq<string>, i: nat, j: nat)
    requires i < |rules| && j < |files|
    ensures |RuleMajor(rules, files)| == |rules| * |files|
    ensures i * |files| + j < |rules| * |files|
    ensures RuleMajor(rules, files)[i * |files| + j] == (rules[i], files[j])
    decreases i
  {
    var f := |files|;
    RuleMajorLength(rules, files);
    var block := seq(f, k requires 0 <= k < f => (rules[0], files[k]));
    assert RuleMajor(rules, files) == block + RuleMajor(rules[1..], files);
    if i > 0 {
      RuleMajorAt(rules[1..], files, i - 1, j);
      assert rules[1..][i - 1] == rules[i];
      assert i * f + j == f + ((i - 1) * f + j);
      assert |rules| * f == f + (|rules| - 1) * f;
    } else {
      assert |rules| * f == f + (|rules| - 1) * f;
    }
  }

  lemma {:induction false} RuleMajorLength(rules: seq<Rule>, files: seq<string>)
    ensures |RuleMajor(rules, files)| == |rules| * |files|
    decreases |rules|
  {
    if rules != [] {
      RuleMajorLength(rules[1..], files);
      assert |rules| * |files| == |files| + (|rules| - 1) * |files|;
    }
  }

  /** `loop_params` hands out the rule-major product of the rules and the
      files: |rules| x |files| pairs, with rule `i` on file `j` at position
      `i * |files| + j` (`RuleMajorAt`). Duplicate rules are visited once per
      occurrence, at their position. */
  lemma LoopParamsPairs(rules: seq<Rule>, files: seq<string>)
    ensures PairsOf(LoopParams(rules, files)) == RuleMajor(rules, files)
    ensures |PairsOf(LoopParams(rules, files))| == |rules| * |files|
  {
    ParamsFromPairs(rules, 1, |rules|, files);
    RuleMajorLength(rules, files);
  }

  lemma {:induction false} ParamsFromLength(rules: seq<Rule>, index: nat, total: nat, files: seq<string>)
    ensures |ParamsFrom(rules, index, total, files)| == |rules| * (|files| + 1)
    decreases |rules|
  {
    if rules != [] {
      ParamsFromLength(rules[1..], index + 1, total, files);
      assert |rules| * (|files| + 1) == (|files| + 1) + (|rules| - 1) * (|files| + 1);
    }
  }

  /** Position `j` of rule `i`'s block, where each block is the rule's
      notice followed by its pairs, one per file. */
  lemma {:induction false} ParamsFromAt(rules: seq<Rule>, index: nat, total: nat, files: seq<string>, i: nat, j: nat)
    requires i < |rules| && j <= |files|
    ensures |ParamsFrom(rules, index, total, files)| == |rules| * (|files| + 1)
    ensures i * (|files| + 1) + j < |rules| * (|files| + 1)
    ensures ParamsFrom(rules, index, total, files)[i * (|files| + 1) + j]
         == if j == 0 then Notice(index + i, total, rules[i]) else Visit(rules[i], files[j - 1])
    decreases i
  {
    var b := |files| + 1;
    ParamsFromLength(rules, index, total, files);
    var head := [Notice(index, total, rules[0])] + Visits(rules[0], files);
    assert ParamsFrom(rules, index, total, files) == head + ParamsFrom(rules[1..], index + 1, total, files);
    assert |rules| * b == b + (|rules| - 1) * b;
    if i > 0 {
      ParamsFromAt(rules[1..], index + 1, total, files, i - 1, j);
      assert rules[1..][i - 1] == rules[i];
      assert i * b + j == b + ((i - 1) * b + j);
    } else if j > 0 {
      assert head[j] == Visits(rules[0], files)[j - 1];
    }
  }

  /** Where `loop_params` puts each item: rule `i` (from 0) owns the block of
      `|files| + 1` items starting at `i * (|files| + 1)`; the block opens with
      the notice numbered `i + 1` of `|rules|`, and its item `1 + j` is the
      pair of that rule with file `j`. */
  lemma LoopParamsAt(rules: seq<Rule>, files: seq<string>, i: nat, j: nat)
    requires i < |rules| && j < |files|
    ensures |LoopParams(rules, files)| == |rules| * (|files| + 1)
    ensures i * (|files| + 1) + 1 + j < |LoopParams(rules, files)|
    ensures LoopParams(rules, files)[i * (|files| + 1)] == Notice(i + 1, |rules|, rules[i])
    ensures LoopParams(rules, files)[i * (|files| + 1) + 1 + j] == Visit(rules[i], files[j])
  {
    ParamsFromAt(rules, 1, |rules|, files, i, 0);
    ParamsFromAt(rules, 1, |rules|, files, i, j + 1);
  }

  /** The notice of rule `i` opens its block, also when there are no files. */
  lemma LoopParamsNoticeAt(rules: seq<Rule>, files: seq<string>, i: nat)
    requires i < |rules|
    ensures |LoopParams(rules, files)| == |rules| * (|files| + 1)
    ensures i * (|files| + 1) < |LoopParams(rules, files)|
    ensures LoopParams(rules, files)[i * (|files| + 1)] == Notice(i + 1, |rules|, rules[i])
  {
    ParamsFromAt(rules, 1, |rules|, files, i, 0);
  }

  // ---------------------------------------------------------------------
  // The fold

  /** Running more steps after a run: nothing happens once it has failed. */
  function Continue(o: Options, format: Formatter, git: seq<string> -> Completion,
                    r1: Run, s2: seq<Param>): Run
  {
    if r1.result.Failure? then r1
    else
      var r2 := Sweep(o, format, git, s2, r1.fs, r1.result.value);
      Run(r1.events + r2.events, r2.fs, r2.result)
  }

  /** Sweeping two stretches of steps is sweeping the first and continuing
      from the files and count it left. */
  lemma {:induction false} SweepAppend(o: Options, format: Formatter, git: seq<string> -> Completion,
                                       s1: seq<Param>, s2: seq<Param>, fs: Files, count: nat)
    ensures Sweep(o, format, git, s1 + s2, fs, count)
         == Continue(o, format, git, Sweep(o, format, git, s1, fs, count), s2)
    decreases |s1|
  {
    if s1 == [] {
      assert s1 + s2 == s2;
    } else {
      assert (s1 + s2)[0] == s1[0];
      assert (s1 + s2)[1..] == s1[1..] + s2;
      var s := DoStep(o, format, git, s1[0], fs);
      if s.result.Success? {
        var c := if s.result.value then count + 1 else count;
        SweepAppend(o, format, git, s1[1..], s2, s.fs, c);
        var r1 := Sweep(o, format, git, s1[1..], s.fs, c);
        if r1.result.Success? {
          var r2 := Sweep(o, format, git, s2, r1.fs, r1.result.value);
          assert s.events + (r1.events + r2.events) == (s.events + r1.events) + r2.events;
        }
      }
    }
  }

  /** A failure aborts the run: no step after it is taken. */
  lemma SweepStopsAtFailure(o: Options, format: Formatter, git: seq<string> -> Completion,
                            s1: seq<Param>, s2: seq<Param>, fs: Files, count: nat)
    requires Sweep(o, format, git, s1, fs, count).result.Failure?
    ensures Sweep(o, format, git, s1 + s2, fs, count) == Sweep(o, format, git, s1, fs, count)
  {
    SweepAppend(o, format, git, s1, s2, fs, count);
  }

  /** A failed sweep is a successful sweep of the steps before the failing
      step, followed by that step's events; the files are the ones the
      failing step left behind. */
  lemma SweepFailure(o: Options, format: Formatter, git: seq<string> -> Completion,
                     steps: seq<Param>, fs: Files, count: nat) returns (k: nat)
    requires Sweep(o, format, git, steps, fs, count).result.Failure?
    ensures k < |steps|
    ensures var p := Sweep(o, format, git, steps[..k], fs, count);
      var s := DoStep(o, format, git, steps[k], p.fs);
      && p.result.Success? && s.result.Failure?
      && Sweep(o, format, git, steps, fs, count) == Run(p.events + s.events, s.fs, Failure(s.result.error))
  {
    k := FailingStep(o, format, git, steps, fs, count);
    var p := Sweep(o, format, git, steps[..k], fs, count);
    SweepAppend(o, format, git, steps[..k], steps[k..], fs, count);
    assert steps[..k] + steps[k..] == steps;
    assert steps[k..][0] == steps[k];
  }

  /** Where a failed sweep fails: the steps before it succeed, and the step
      itself fails. */
  lemma {:induction false} FailingStep(o: Options, format: Formatter, git: seq<string> -> Completion,
                                       steps: seq<Param>, fs: Files, count: nat) returns (k: nat)
    requires Sweep(o, format, git, steps, fs, count).result.Failure?
    ensures k < |steps|
    ensures var p := Sweep(o, format, git, steps[..k], fs, count);
      p.result.Success? && DoStep(o, format, git, steps[k], p.fs).result.Failure?
    decreases |steps|
  {
    var s := DoStep(o, format, git, steps[0], fs);
    if s.result.Failure? {
      k := 0;
      assert steps[..0] == [];
    } else {
      var c := if s.result.value then count + 1 else count;
      var k' := FailingStep(o, format, git, steps[1..], s.fs, c);
      k := k' + 1;
      assert steps[..k][0] == steps[0];
      assert steps[..k][1..] == steps[1..][..k'];
      assert steps[k] == steps[1..][k'];
    }
  }

  /** The counter only grows, by one per commit launched. */
  lemma {:induction false} SweepCount(o: Options, format: Formatter, git: seq<string> -> Completion,
                                      steps: seq<Param>, fs: Files, count: nat)
    ensures var r := Sweep(o, format, git, steps, fs, count);
      r.result.Success? ==> r.result.value == count + CountIf(r.events, IsCommit)
    decreases |steps|
  {
    if steps != [] {
      var s := DoStep(o, format, git, steps[0], fs);
      if s.result.Success? {
        var c := if s.result.value then count + 1 else count;
        SweepCount(o, format, git, steps[1..], s.fs, c);
        var rest := Sweep(o, format, git, steps[1..], s.fs, c);
        CountIfAppend(s.events, rest.events, IsCommit);
        if steps[0].Notice? {
          CountIfOne(s.events[0], IsCommit);
        }
      }
    }
  }

  /** Every pair's file can be read. */
  ghost predicate Readable(steps: seq<Param>, fs: Files)
  {
    forall k :: 0 <= k < |steps| && steps[k].Visit? ==> steps[k].path in fs
  }

  /** Dry-run launches nothing, changes no file and commits nothing; the
      only way it can fail is a file it cannot read for the before-hash. */
  lemma {:induction false} SweepDryRun(o: Options, format: Formatter, git: seq<string> -> Completion,
                                       steps: seq<Param>, fs: Files, count: nat)
    requires o.dryrun
    ensures var r := Sweep(o, format, git, steps, fs, count);
      && CountIf(r.events, IsSpawn) == 0
      && r.fs == fs
      && (r.result.Success? ==> r.result.value == count)
      && (r.result.Failure? ==> r.result.error.Unreadable?)
      && (Readable(steps, fs) ==> r.result == Success(count))
    decreases |steps|
  {
    if steps != [] {
      var s := DoStep(o, format, git, steps[0], fs);
      if steps[0].Notice? {
        CountIfOne(s.events[0], IsSpawn);
      }
      if s.result.Success? {
        SweepDryRun(o, format, git, steps[1..], s.fs, count);
        var rest := Sweep(o, format, git, steps[1..], s.fs, count);
        CountIfAppend(s.events, rest.events, IsSpawn);
        if Readable(steps, fs) {
          assert forall k :: 1 <= k < |steps| ==> steps[1..][k - 1] == steps[k];
          assert Readable(steps[1..], fs);
        }
      } else {
        assert steps[0].Visit? && steps[0].path !in fs;
      }
    }
  }

  /** A sweep that completes shows exactly the notices of its steps, in order. */
  lemma {:induction false} SweepProgress(o: Options, format: Formatter, git: seq<string> -> Completion,
                                         steps: seq<Param>, fs: Files, count: nat)
    ensures var r := Sweep(o, format, git, steps, fs, count);
      r.result.Success? ==> ProgressTexts(r.events) == NoticeTexts(steps)
    decreases |steps|
  {
    if steps != [] {
      var s := DoStep(o, format, git, steps[0], fs);
      if s.result.Success? {
        var c := if s.result.value then count + 1 else count;
        SweepProgress(o, format, git, steps[1..], s.fs, c);
        var rest := Sweep(o, format, git, steps[1..], s.fs, c);
        ProgressTextsAppend(s.events, rest.events);
        assert steps == [steps[0]] + steps[1..];
        NoticeTextsAppend([steps[0]], steps[1..]);
        assert [steps[0]][1..] == [];
        match steps[0]
        case Notice(_, _, _) =>
          assert s.events[1..] == [];
        case Visit(_, _) =>
          NoProgress(s.events);
      }
    }
  }

  /** The formatter commands for a list of pairs. */
  function ArgvsOf(bin: string, pairs: seq<(Rule, string)>): seq<seq<string>>
  {
    seq(|pairs|, k requires 0 <= k < |pairs| => FormatterArgv(bin, pairs[k].0.id, pairs[k].1))
  }

  lemma ArgvsOfAppend(bin: string, a: seq<(Rule, string)>, b: seq<(Rule, string)>)
    ensures ArgvsOf(bin, a + b) == ArgvsOf(bin, a) + ArgvsOf(bin, b)
  {
  }

  /** Outside dry-run, a sweep that completes runs the formatter once per
      pair, in the order the pairs are handed out, with the command for that
      pair's rule and file. */
  lemma {:induction false} SweepFormatterCalls(o: Options, format: Formatter, git: seq<string> -> Completion,
                                               steps: seq<Param>, fs: Files, count: nat)
    requires !o.dryrun
    ensures var r := Sweep(o, format, git, steps, fs, count);
      var bin := FormatterBinary(o.autopep8);
      r.result.Success? ==> FormatterCalls(r.events) == ArgvsOf(bin, PairsOf(steps))
    decreases |steps|
  {
    var bin := FormatterBinary(o.autopep8);
    if steps != [] {
      var s := DoStep(o, format, git, steps[0], fs);
      if s.result.Success? {
        var c := if s.result.value then count + 1 else count;
        SweepFormatterCalls(o, format, git, steps[1..], s.fs, c);
        var rest := Sweep(o, format, git, steps[1..], s.fs, c);
        assert Sweep(o, format, git, steps, fs, count).events == s.events + rest.events;
        FormatterCallsAppend(s.events, rest.events);
        assert steps == [steps[0]] + steps[1..];
        PairsOfAppend([steps[0]], steps[1..]);
        ArgvsOfAppend(bin, PairsOf([steps[0]]), PairsOf(steps[1..]));
        StepFormatterCall(o, format, git, steps[0], fs);
      }
    }
  }

  lemma StepFormatterCall(o: Options, format: Formatter, git: seq<string> -> Completion,
                           p: Param, fs: Files)
    requires !o.dryrun && DoStep(o, format, git, p, fs).result.Success?
    ensures FormatterCalls(DoStep(o, format, git, p, fs).events)
         == ArgvsOf(FormatterBinary(o.autopep8), PairsOf([p]))
  {
    assert [p][1..] == [];
    match p
    case Notice(_, _, _) =>
      var e := DoStep(o, format, git, p, fs).events;
      assert e[1..] == [];
      assert PairsOf([p]) == [];
    case Visit(rule, path) =>
      VisitFormatterCall(o, format, git, rule, path, fs);
      assert PairsOf([p]) == [(rule, path)];
  }

  lemma VisitFormatterCall(o: Options, format: Formatter, git: seq<string> -> Completion,
                           rule: Rule, path: string, fs: Files)
    requires !o.dryrun && path in fs
    ensures FormatterCalls(DoVisit(o, format, git, rule, path, fs).events)
         == [FormatterArgv(FormatterBinary(o.autopep8), rule.id, path)]
  {
    var cmd := FormatterArgv(FormatterBinary(o.autopep8), rule.id, path);
    var run := format(rule.id, path, fs[path]);
    var a := AfterFormat(o, git, rule, path, fs[path], run, fs[path := run.content]);
    var l := Launch(o, format, git, rule, path, fs);
    var log := if o.verbose then [Echo(cmd)] else [];
    assert l.events == [Spawn(cmd)] + a.events;
    FormatterCallsAppend(log, l.events);
    FormatterCallsAppend([Spawn(cmd)], a.events);
    NoFormatterCalls(a.events);
    assert [Spawn(cmd)][1..] == [];
  }

  /** None of the events is the summary line. */
  ghost predicate NoSummary(events: seq<Event>)
  {
    forall k :: 0 <= k < |events| ==> !events[k].Summary?
  }

  /** No step of a sweep prints the summary line. */
  lemma {:induction false} SweepNoSummary(o: Options, format: Formatter, git: seq<string> -> Completion,
                                          steps: seq<Param>, fs: Files, count: nat)
    ensures NoSummary(Sweep(o, format, git, steps, fs, count).events)
    decreases |steps|
  {
    if steps != [] {
      var s := DoStep(o, format, git, steps[0], fs);
      assert NoSummary(s.events);
      if s.result.Success? {
        var c: nat := if s.result.value then count + 1 else count;
        SweepNoSummary(o, format, git, steps[1..], s.fs, c);
        var rest := Sweep(o, format, git, steps[1..], s.fs, c);
        assert Sweep(o, format, git, steps, fs, count).events == s.events + rest.events;
        NoSummaryAppend(s.events, rest.events);
      }
    }
  }

  lemma NoSummaryAppend(a: seq<Event>, b: seq<Event>)
    requires NoSummary(a) && NoSummary(b)
    ensures NoSummary(a + b)
  {
    forall k | 0 <= k < |a + b|
      ensures !(a + b)[k].Summary?
    {
      if k >= |a| {
        assert (a + b)[k] == b[k - |a|];
      }
    }
  }

  /** Events of a run that went well: every launch is the formatter or
      `git commit`, and no "Error in" line is printed. */
  ghost predicate Orderly(events: seq<Event>)
  {
    forall k :: 0 <= k < |events| ==>
      && !events[k].Alert?
      && (events[k].Spawn? ==> IsFormatterRun(events[k]) || IsCommit(events[k]))
  }

  lemma OrderlyAppend(a: seq<Event>, b: seq<Event>)
    requires Orderly(a) && Orderly(b)
    ensures Orderly(a + b)
  {
    forall k | |a| <= k < |a + b|
      ensures (a + b)[k] == b[k - |a|]
    {
    }
  }

  /** A commit that went through launches only itself and prints no alert. */
  lemma CommitOrderly(path: string, comment: string, verbose: bool,
                      author: Option<string>, git: seq<string> -> Completion)
    requires git(CommitArgv(path, comment, author)).code == 0
    ensures Orderly(GitCommit(path, comment, false, verbose, author, git).events)
  {
    var c := GitCommit(path, comment, false, verbose, author, git);
    assert IsCommit(Spawn(CommitArgv(path, comment, author)));
    assert forall k :: 0 <= k < |c.events| ==> c.events[k] != Alert("Error in " + path);
  }

  /** After a formatter run that went through, only the commit is launched
      and no alert is printed. */
  lemma AfterFormatOrderly(o: Options, git: seq<string> -> Completion, rule: Rule, path: string,
                           before: string, run: ToolRun, fs: Files)
    requires !o.dryrun
    requires path in fs && fs[path] == run.content
    requires AfterFormat(o, git, rule, path, before, run, fs).result.Success?
    ensures Orderly(AfterFormat(o, git, rule, path, before, run, fs).events)
  {
    if run.content != before {
      CommitOrderly(path, Comment(rule), o.verbose, o.author, git);
      var c := GitCommit(path, Comment(rule), false, o.verbose, o.author, git);
      OrderlyAppend([Output(run.output)], c.events);
    }
  }

  /** A pair that went through launches only the formatter and the commit,
      and prints no alert. */
  lemma VisitOrderly(o: Options, format: Formatter, git: seq<string> -> Completion,
                     rule: Rule, path: string, fs: Files)
    requires DoVisit(o, format, git, rule, path, fs).result.Success?
    ensures Orderly(DoVisit(o, format, git, rule, path, fs).events)
  {
    assert path in fs;
    if o.dryrun {
      VisitEvents(o, format, git, rule, path, fs);
    } else {
      VisitLaunchResult(o, format, git, rule, path, fs);
      LaunchedVisitOrderly(o, format, git, rule, path, fs);
    }
  }

  lemma LaunchedVisitOrderly(o: Options, format: Formatter, git: seq<string> -> Completion,
                             rule: Rule, path: string, fs: Files)
    requires !o.dryrun && path in fs
    requires Launch(o, format, git, rule, path, fs).result.Success?
    ensures Orderly(DoVisit(o, format, git, rule, path, fs).events)
  {
    var cmd := FormatterArgv(FormatterBinary(o.autopep8), rule.id, path);
    var log: seq<Event> := if o.verbose then [Echo(cmd)] else [];
    var l := Launch(o, format, git, rule, path, fs);
    assert DoVisit(o, format, git, rule, path, fs).events == log + l.events by {
      VisitEvents(o, format, git, rule, path, fs);
    }
    assert Orderly(log + l.events) by {
      LaunchOrderly(o, format, git, rule, path, fs);
      OrderlyAppend(log, l.events);
    }
  }

  /** The launched part of a pair that went through: the formatter, then at
      most the commit. */
  lemma LaunchOrderly(o: Options, format: Formatter, git: seq<string> -> Completion,
                      rule: Rule, path: string, fs: Files)
    requires !o.dryrun && path in fs
    requires Launch(o, format, git, rule, path, fs).result.Success?
    ensures Orderly(Launch(o, format, git, rule, path, fs).events)
  {
    var cmd := FormatterArgv(FormatterBinary(o.autopep8), rule.id, path);
    var run := format(rule.id, path, fs[path]);
    var a := AfterFormat(o, git, rule, path, fs[path], run, fs[path := run.content]);
    LaunchEvents(o, format, git, rule, path, fs);
    AfterFormatOrderly(o, git, rule, path, fs[path], run, fs[path := run.content]);
    assert IsFormatterRun(Spawn(cmd));
    OrderlyAppend([Spawn(cmd)], a.events);
  }

  /** A completed sweep launches only formatters and commits, and prints no
      alert. */
  lemma {:induction false} SweepOrderly(o: Options, format: Formatter, git: seq<string> -> Completion,
                                        steps: seq<Param>, fs: Files, count: nat)
    requires Sweep(o, format, git, steps, fs, count).result.Success?
    ensures Orderly(Sweep(o, format, git, steps, fs, count).events)
    decreases |steps|
  {
    if steps != [] {
      var s := DoStep(o, format, git, steps[0], fs);
      if steps[0].Visit? {
        VisitOrderly(o, format, git, steps[0].rule, steps[0].path, fs);
      }
      var c: nat := if s.result.value then count + 1 else count;
      SweepOrderly(o, format, git, steps[1..], s.fs, c);
      var rest := Sweep(o, format, git, steps[1..], s.fs, c);
      OrderlyAppend(s.events, rest.events);
    }
  }

  // ---------------------------------------------------------------------
  // Whole runs

  /** A run that completes ends with the summary of its count, and that
      count is the number of commits it launched. */
  lemma RunOnFilesCount(o: Options, format: Formatter, git: seq<string> -> Completion,
                        rules: seq<Rule>, files: seq<string>, fs: Files)
    ensures var r := RunOnFiles(o, format, git, rules, files, fs);
      r.result.Success? ==>
        && r.events[|r.events| - 1] == Summary(SummaryText(r.result.value))
        && r.result.value == CountIf(r.events, IsCommit)
  {
    var steps := LoopParams(rules, files);
    var s := Sweep(o, format, git, steps, fs, 0);
    if s.result.Success? {
      var last := [Summary(SummaryText(s.result.value))];
      SweepCount(o, format, git, steps, fs, 0);
      CountIfAppend(s.events, last, IsCommit);
      CountIfOne(last[0], IsCommit);
    }
  }

  /** A run that completes shows one notice per rule, in catalog order,
      numbered 1 to N out of N. */
  lemma RunOnFilesNotices(o: Options, format: Formatter, git: seq<string> -> Completion,
                          rules: seq<Rule>, files: seq<string>, fs: Files)
    ensures var r := RunOnFiles(o, format, git, rules, files, fs);
      r.result.Success? ==>
        ProgressTexts(r.events)
        == seq(|rules|, k requires 0 <= k < |rules| => NoticeText(k + 1, |rules|, rules[k]))
  {
    var steps := LoopParams(rules, files);
    var s := Sweep(o, format, git, steps, fs, 0);
    if s.result.Success? {
      var last := [Summary(SummaryText(s.result.value))];
      SweepProgress(o, format, git, steps, fs, 0);
      ProgressTextsAppend(s.events, last);
      assert last[1..] == [];
      LoopParamsNotices(rules, files);
    }
  }

  /** Outside dry-run, a run that completes runs the formatter exactly once
      per (rule, file) pair, rule-major, each time with that pair's command. */
  lemma RunOnFilesFormatterCalls(o: Options, format: Formatter, git: seq<string> -> Completion,
                                 rules: seq<Rule>, files: seq<string>, fs: Files)
    requires !o.dryrun
    ensures var r := RunOnFiles(o, format, git, rules, files, fs);
      r.result.Success? ==>
        && FormatterCalls(r.events) == ArgvsOf(FormatterBinary(o.autopep8), RuleMajor(rules, files))
        && |FormatterCalls(r.events)| == |rules| * |files|
  {
    var steps := LoopParams(rules, files);
    var s := Sweep(o, format, git, steps, fs, 0);
    if s.result.Success? {
      var last := [Summary(SummaryText(s.result.value))];
      SweepFormatterCalls(o, format, git, steps, fs, 0);
      FormatterCallsAppend(s.events, last);
      assert last[1..] == [];
      LoopParamsPairs(rules, files);
    }
  }

  /** Where the formatter command for rule `i` on file `j` sits among the
      formatter launches of a completed run. */
  lemma RunOnFilesFormatterCallAt(o: Options, format: Formatter, git: seq<string> -> Completion,
                                  rules: seq<Rule>, files: seq<string>, fs: Files, i: nat, j: nat)
    requires !o.dryrun && i < |rules| && j < |files|
    requires RunOnFiles(o, format, git, rules, files, fs).result.Success?
    ensures var calls := FormatterCalls(RunOnFiles(o, format, git, rules, files, fs).events);
      && i * |files| + j < |calls|
      && calls[i * |files| + j] == FormatterArgv(FormatterBinary(o.autopep8), rules[i].id, files[j])
  {
    RunOnFilesFormatterCalls(o, format, git, rules, files, fs);
    RuleMajorAt(rules, files, i, j);
  }

  /** A run that raises prints no summary. */
  lemma RunOnFilesFailure(o: Options, format: Formatter, git: seq<string> -> Completion,
                          rules: seq<Rule>, files: seq<string>, fs: Files)
    ensures RunOnFiles(o, format, git, rules, files, fs).result.Failure? ==>
      NoSummary(RunOnFiles(o, format, git, rules, files, fs).events)
  {
    SweepNoSummary(o, format, git, LoopParams(rules, files), fs, 0);
  }

  /** A run stopped by a failed commit ends with "Error in <path>" for one of
      the listed files. */
  lemma RunOnFilesCommitFailure(o: Options, format: Formatter, git: seq<string> -> Completion,
                                rules: seq<Rule>, files: seq<string>, fs: Files) returns (path: string)
    requires RunOnFiles(o, format, git, rules, files, fs).result.Failure?
    requires RunOnFiles(o, format, git, rules, files, fs).result.error.CommitFailed?
    ensures var r := RunOnFiles(o, format, git, rules, files, fs);
      && path in files
      && |r.events| > 0 && r.events[|r.events| - 1] == Alert("Error in " + path)
  {
    var steps := LoopParams(rules, files);
    assert RunOnFiles(o, format, git, rules, files, fs) == Sweep(o, format, git, steps, fs, 0);
    var k := SweepCommitFailure(o, format, git, steps, fs, 0);
    LoopParamsVisitFiles(rules, 1, |rules|, files);
    path := steps[k].path;
  }

  /** A sweep stopped by a failed commit stopped at a pair, and ends with
      "Error in <path>" for that pair's file. */
  lemma SweepCommitFailure(o: Options, format: Formatter, git: seq<string> -> Completion,
                           steps: seq<Param>, fs: Files, count: nat) returns (k: nat)
    requires Sweep(o, format, git, steps, fs, count).result.Failure?
    requires Sweep(o, format, git, steps, fs, count).result.error.CommitFailed?
    ensures k < |steps| && steps[k].Visit?
    ensures var r := Sweep(o, format, git, steps, fs, count);
      |r.events| > 0 && r.events[|r.events| - 1] == Alert("Error in " + steps[k].path)
  {
    k := SweepFailure(o, format, git, steps, fs, count);
    var p := Sweep(o, format, git, steps[..k], fs, count);
    var s := DoStep(o, format, git, steps[k], p.fs);
    assert steps[k].Visit?;
    var rule, path := steps[k].rule, steps[k].path;
    assert !o.dryrun && path in p.fs;
    VisitOutcome(o, format, git, rule, path, p.fs);
    VisitCommitFailed(o, format, git, rule, path, p.fs);
    GitPep8.LastOf(p.events, s.events);
  }

  /** A completed run launches only the formatter and `git commit`, and
      prints no "Error in" line. */
  lemma RunOnFilesOrderly(o: Options, format: Formatter, git: seq<string> -> Completion,
                          rules: seq<Rule>, files: seq<string>, fs: Files)
    requires RunOnFiles(o, format, git, rules, files, fs).result.Success?
    ensures Orderly(RunOnFiles(o, format, git, rules, files, fs).events)
  {
    var r := Sweep(o, format, git, LoopParams(rules, files), fs, 0);
    SweepOrderly(o, format, git, LoopParams(rules, files), fs, 0);
    OrderlyAppend(r.events, [Summary(SummaryText(r.result.value))]);
  }

  /** Every listed file can be read. */
  ghost predicate AllIn(files: seq<string>, fs: Files)
  {
    forall j :: 0 <= j < |files| ==> files[j] in fs
  }

  /** A dry run launches nothing and leaves every file as it was; when every
      listed file can be read it completes and reports 0. */
  lemma RunOnFilesDryRun(o: Options, format: Formatter, git: seq<string> -> Completion,
                         rules: seq<Rule>, files: seq<string>, fs: Files)
    requires o.dryrun
    ensures var r := RunOnFiles(o, format, git, rules, files, fs);
      && CountIf(r.events, IsSpawn) == 0
      && r.fs == fs
      && (r.result.Failure? ==> r.result.error.Unreadable?)
      && (AllIn(files, fs) ==>
            r.result == Success(0) && r.events[|r.events| - 1] == Summary(SummaryText(0)))
  {
    var steps := LoopParams(rules, files);
    SweepDryRun(o, format, git, steps, fs, 0);
    var s := Sweep(o, format, git, steps, fs, 0);
    if s.result.Success? {
      var last := [Summary(SummaryText(s.result.value))];
      CountIfAppend(s.events, last, IsSpawn);
      CountIfOne(last[0], IsSpawn);
    }
    if AllIn(files, fs) {
      LoopParamsVisitFiles(rules, 1, |rules|, files);
      assert PathsIn(steps, files);
      forall k | 0 <= k < |steps| && steps[k].Visit?
        ensures steps[k].path in fs
      {
        assert steps[k].path in files;
      }
      assert Readable(steps, fs);
    }
  }

  /** Every pair's file is one of `files`. */
  ghost predicate PathsIn(steps: seq<Param>, files: seq<string>)
  {
    forall k :: 0 <= k < |steps| && steps[k].Visit? ==> steps[k].path in files
  }

  lemma {:induction false} LoopParamsVisitFiles(rules: seq<Rule>, index: nat, total: nat, files: seq<string>)
    ensures PathsIn(ParamsFrom(rules, index, total, files), files)
    decreases |rules|
  {
    if rules != [] {
      LoopParamsVisitFiles(rules[1..], index + 1, total, files);
      var head := [Notice(index, total, rules[0])];
      var block := Visits(rules[0], files);
      var tail := ParamsFrom(rules[1..], index + 1, total, files);
      var steps := head + block + tail;
      assert ParamsFrom(rules, index, total, files) == steps;
      forall k | 0 <= k < |steps| && steps[k].Visit?
        ensures steps[k].path in files
      {
        if k == 0 {
        } else if k <= |files| {
          assert steps[k] == block[k - 1];
        } else {
          assert steps[k] == tail[k - 1 - |files|];
        }
      }
    }
  }

  /** With an empty file list every rule is still announced, nothing is
      launched, and the summary reports 0. */
  lemma EmptyFileList(o: Options, format: Formatter, git: seq<string> -> Completion,
                      rules: seq<Rule>, fs: Files)
    ensures RunOnFiles(o, format, git, rules, [], fs)
         == Run(seq(|rules|, k requires 0 <= k < |rules| => Progress(NoticeText(k + 1, |rules|, rules[k])))
                + [Summary(SummaryText(0))], fs, Success(0))
  {
    EmptySweep(o, format, git, rules, 1, |rules|, fs, 0);
  }

  /** When the start path is a file, the sweep covers that one file if it
      passes both filters, and otherwise only announces the rules and reports
      0. */
  lemma SingleFileRun(o: Options, format: Formatter, git: seq<string> -> Completion,
                      rules: seq<Rule>, start: string, recurse: bool, ext: Option<string>, fs: Files)
    ensures var r := RunAutopep8(o, format, git, rules, start, RegularFile, recurse, ext, fs);
      if Kept(start, ext) then r == RunOnFiles(o, format, git, rules, [start], fs)
      else r == Run(seq(|rules|, k requires 0 <= k < |rules| => Progress(NoticeText(k + 1, |rules|, rules[k])))
                    + [Summary(SummaryText(0))], fs, Success(0))
  {
    EmptyFileList(o, format, git, rules, fs);
  }

  lemma {:induction false} EmptySweep(o: Options, format: Formatter, git: seq<string> -> Completion,
                                      rules: seq<Rule>, index: nat, total: nat, fs: Files, count: nat)
    ensures Sweep(o, format, git, ParamsFrom(rules, index, total, []), fs, count)
         == Run(ProgressLines(rules, index, total), fs, Success(count))
    decreases |rules|
  {
    if rules != [] {
      var steps := ParamsFrom(rules, index, total, []);
      var tail := ParamsFrom(rules[1..], index + 1, total, []);
      assert Visits(rules[0], []) == [];
      assert steps == [Notice(index, total, rules[0])] + tail;
      EmptySweep(o, format, git, rules[1..], index + 1, total, fs, count);
      NoticeFirst(o, format, git, index, total, rules[0], tail, fs, count);
      ProgressLinesCons(rules, index, total);
    }
  }

  /** The progress lines of a run over no files: one per rule, in order. */
  function ProgressLines(rules: seq<Rule>, index: nat, total: nat): (lines: seq<Event>)
    ensures |lines| == |rules|
  {
    seq(|rules|, k requires 0 <= k < |rules| => Progress(NoticeText(index + k, total, rules[k])))
  }

  lemma ProgressLinesCons(rules: seq<Rule>, index: nat, total: nat)
    requires rules != []
    ensures ProgressLines(rules, index, total)
         == [Progress(NoticeText(index, total, rules[0]))] + ProgressLines(rules[1..], index + 1, total)
  {
  }

  /** A notice in front of a stretch of steps prints its progress line and
      changes nothing else. */
  lemma NoticeFirst(o: Options, format: Formatter, git: seq<string> -> Completion,
                    index: nat, total: nat, rule: Rule, tail: seq<Param>, fs: Files, count: nat)
    ensures var rt := Sweep(o, format, git, tail, fs, count);
      Sweep(o, format, git, [Notice(index, total, rule)] + tail, fs, count)
        == Run([Progress(NoticeText(index, total, rule))] + rt.events, rt.fs, rt.result)
  {
    var steps := [Notice(index, total, rule)] + tail;
    assert steps[0] == Notice(index, total, rule) && steps[1..] == tail;
  }

  // ---------------------------------------------------------------------
  // What the files hold afterwards

  /** The content a file reaches when each rule's formatter pass is applied
      to it in turn, each seeing the previous pass's result. */
  function ApplyRules(format: Formatter, rules: seq<Rule>, path: string, content: string): string
    decreases |rules|
  {
    if rules == [] then content
    else ApplyRules(format, rules[1..], path, format(rules[0].id, path, content).content)
  }

  ghost predicate Distinct(files: seq<string>)
  {
    forall i, j :: 0 <= i < j < |files| ==> files[i] != files[j]
  }

  /** One rule's sweep, when it completes, rewrites each listed file once
      with the formatter's result for that rule and leaves the rest alone. */
  lemma {:induction false} SweepOneRule(o: Options, format: Formatter, git: seq<string> -> Completion,
                                        rule: Rule, files: seq<string>, fs: Files, count: nat)
    requires !o.dryrun && Distinct(files) && AllIn(files, fs)
    requires Sweep(o, format, git, Visits(rule, files), fs, count).result.Success?
    ensures OneRuleApplied(format, rule, files, fs, Sweep(o, format, git, Visits(rule, files), fs, count).fs)
    decreases |files|
  {
    if files != [] {
      var f0 := files[0];
      var rest := files[1..];
      var fs' := fs[f0 := format(rule.id, f0, fs[f0]).content];
      var c := VisitsHead(o, format, git, rule, files, fs, count);
      RestIn(files, fs, format(rule.id, f0, fs[f0]).content);
      SweepOneRule(o, format, git, rule, rest, fs', c);
      OneRuleStep(format, rule, files, fs, fs', Sweep(o, format, git, Visits(rule, rest), fs', c).fs);
    }
  }

  /** The files after the first are distinct and still present once the
      first is rewritten. */
  lemma RestIn(files: seq<string>, fs: Files, content: string)
    requires files != [] && Distinct(files) && AllIn(files, fs)
    ensures Distinct(files[1..]) && AllIn(files[1..], fs[files[0] := content])
  {
    var rest := files[1..];
    assert forall j :: 0 <= j < |rest| ==> rest[j] == files[j + 1];
  }

  /** The first pair of one rule's sweep rewrites its file and hands the
      rest of the sweep the new contents. */
  lemma VisitsHead(o: Options, format: Formatter, git: seq<string> -> Completion,
                   rule: Rule, files: seq<string>, fs: Files, count: nat) returns (c: nat)
    requires !o.dryrun && files != [] && files[0] in fs
    requires Sweep(o, format, git, Visits(rule, files), fs, count).result.Success?
    ensures var fs' := fs[files[0] := format(rule.id, files[0], fs[files[0]]).content];
      && Sweep(o, format, git, Visits(rule, files[1..]), fs', c).result.Success?
      && Sweep(o, format, git, Visits(rule, files), fs, count).fs
         == Sweep(o, format, git, Visits(rule, files[1..]), fs', c).fs
  {
    var steps := Visits(rule, files);
    assert steps[0] == Visit(rule, files[0]);
    assert steps[1..] == Visits(rule, files[1..]);
    var s := DoVisit(o, format, git, rule, files[0], fs);
    assert DoStep(o, format, git, steps[0], fs) == s;
    assert s.result.Success?;
    c := if s.result.value then count + 1 else count;
    var rest := Sweep(o, format, git, steps[1..], s.fs, c);
    assert Sweep(o, format, git, steps, fs, count).fs == rest.fs;
    assert rest.result == Sweep(o, format, git, steps, fs, count).result;
    assert s.fs == fs[files[0] := format(rule.id, files[0], fs[files[0]]).content];
  }

  /** `after` is `before` with each listed file rewritten once by the rule. */
  ghost predicate OneRuleApplied(format: Formatter, rule: Rule, files: seq<string>, before: Files, after: Files)
    requires AllIn(files, before)
  {
    && after.Keys == before.Keys
    && (forall j :: 0 <= j < |files| ==> after[files[j]] == format(rule.id, files[j], before[files[j]]).content)
    && (forall p :: p in before && p !in files ==> after[p] == before[p])
  }

  lemma OneRuleStep(format: Formatter, rule: Rule, files: seq<string>, fs: Files, fs': Files, after: Files)
    requires files != [] && Distinct(files) && AllIn(files, fs)
    requires fs' == fs[files[0] := format(rule.id, files[0], fs[files[0]]).content]
    requires AllIn(files[1..], fs')
    requires OneRuleApplied(format, rule, files[1..], fs', after)
    ensures OneRuleApplied(format, rule, files, fs, after)
  {
    var f0 := files[0];
    var rest := files[1..];
    assert f0 !in rest by {
      forall j | 0 <= j < |rest|
        ensures rest[j] != f0
      {
        assert rest[j] == files[j + 1];
      }
    }
    forall j | 0 <= j < |files|
      ensures after[files[j]] == format(rule.id, files[j], fs[files[j]]).content
    {
      if j > 0 {
        assert files[j] == rest[j - 1] && files[j] != f0;
      }
    }
    forall p | p in fs && p !in files
      ensures after[p] == fs[p]
    {
      assert p !in rest && p != f0;
    }
  }

  /** `after` is `before` with each listed file taken through all the rules. */
  ghost predicate RulesApplied(format: Formatter, rules: seq<Rule>, files: seq<string>, before: Files, after: Files)
    requires AllIn(files, before)
  {
    && after.Keys == before.Keys
    && (forall j :: 0 <= j < |files| ==> after[files[j]] == ApplyRules(format, rules, files[j], before[files[j]]))
    && (forall p :: p in before && p !in files ==> after[p] == before[p])
  }

  /** Outside dry-run, a sweep over distinct readable files that completes
      leaves each listed file as the rules, applied in order, make it (each
      pass seeing the content the previous pass left, because the
      before-hash is taken lazily), and every other file unchanged. */
  lemma {:induction false} SweepFinalContents(o: Options, format: Formatter, git: seq<string> -> Completion,
                                              rules: seq<Rule>, index: nat, total: nat,
                                              files: seq<string>, fs: Files, count: nat)
    requires !o.dryrun && Distinct(files) && AllIn(files, fs)
    requires Sweep(o, format, git, ParamsFrom(rules, index, total, files), fs, count).result.Success?
    ensures RulesApplied(format, rules, files, fs,
                         Sweep(o, format, git, ParamsFrom(rules, index, total, files), fs, count).fs)
    decreases |rules|
  {
    if rules != [] {
      var head := [Notice(index, total, rules[0])];
      var block := Visits(rules[0], files);
      var tail := ParamsFrom(rules[1..], index + 1, total, files);
      assert ParamsFrom(rules, index, total, files) == head + block + tail;
      SweepAppend(o, format, git, head + block, tail, fs, count);
      SweepAppend(o, format, git, head, block, fs, count);
      var rh := Sweep(o, format, git, head, fs, count);
      assert head[1..] == [];
      assert rh.fs == fs && rh.result == Success(count);
      var rb := Sweep(o, format, git, block, fs, count);
      assert rb.result.Success?;
      SweepOneRule(o, format, git, rules[0], files, fs, count);
      var fs1 := rb.fs;
      assert AllIn(files, fs1);
      var rt := Sweep(o, format, git, tail, fs1, rb.result.value);
      assert rt.result.Success?;
      SweepFinalContents(o, format, git, rules[1..], index + 1, total, files, fs1, rb.result.value);
      assert Sweep(o, format, git, ParamsFrom(rules, index, total, files), fs, count).fs == rt.fs;
      forall j | 0 <= j < |files|
        ensures rt.fs[files[j]] == ApplyRules(format, rules, files[j], fs[files[j]])
      {
        assert fs1[files[j]] == format(rules[0].id, files[j], fs[files[j]]).content;
      }
    }
  }

  /** `SweepFinalContents` for a whole `run_autopep8` sweep. */
  lemma RunOnFilesFinalContents(o: Options, format: Formatter, git: seq<string> -> Completion,
                                rules: seq<Rule>, files: seq<string>, fs: Files)
    requires !o.dryrun && Distinct(files) && AllIn(files, fs)
    requires RunOnFiles(o, format, git, rules, files, fs).result.Success?
    ensures RulesApplied(format, rules, files, fs, RunOnFiles(o, format, git, rules, files, fs).fs)
  {
    SweepFinalContents(o, format, git, rules, 1, |rules|, files, fs, 0);
  }
}

=== FILE: paths.dfy ===
/** The POSIX path operations `get_filelist` uses: `os.path.splitext`,
    `os.path.join`, and the `^.*\.egg$` component test. */
module Paths {
  import opened Text

  /** `os.path.splitext(p)`: the root and the extension, where the extension
      starts at the last dot of the last component, unless everything in that
      component before the dot is a dot (hidden files have no extension). */
  function SplitExt(p: string): (r: (string, string))
    ensures r.0 + r.1 == p
  {
    var sepIndex := RFind(p, '/');
    var dotIndex := RFind(p, '.');
    if dotIndex > sepIndex && exists k :: sepIndex < k < dotIndex && p[k] != '.' then
      (p[..dotIndex], p[dotIndex..])
    else
      (p, "")
  }

  /** `os.path.splitext(p)[1]`. */
  function Ext(p: string): string
  {
    SplitExt(p).1
  }

  /** Declarative reading of "e is the extension of p": a suffix made of one
      dot and then neither dots nor slashes, preceded in the same component by
      some character other than a dot. */
  ghost predicate IsExtOf(p: string, e: string)
  {
    var d := |p| - |e|;
    && 1 <= |e| <= |p|
    && p[d..] == e
    && e[0] == '.'
    && (forall k :: 1 <= k < |e| ==> e[k] != '.' && e[k] != '/')
    && (exists j :: 0 <= j < d && p[j] != '.' && NoSlashIn(p, j, d))
  }

  ghost predicate NoSlashIn(p: string, lo: int, hi: int)
    requires 0 <= lo <= hi <= |p|
  {
    forall m :: lo <= m < hi ==> p[m] != '/'
  }

  /** A non-empty extension found by `Ext` meets the declarative reading. */
  lemma ExtSound(p: string)
    ensures Ext(p) != "" ==> IsExtOf(p, Ext(p))
  {
    var sepIndex := RFind(p, '/');
    var dotIndex := RFind(p, '.');
    if Ext(p) != "" {
      var e := Ext(p);
      assert e == p[dotIndex..];
      var k :| sepIndex < k < dotIndex && p[k] != '.';
      assert NoSlashIn(p, k, dotIndex);
      assert forall i :: 1 <= i < |e| ==> e[i] == p[dotIndex + i];
    }
  }

  /** Whatever the declarative reading calls the extension is what `Ext`
      returns; with `ExtSound` the two agree on every path. */
  lemma ExtComplete(p: string, e: string)
    requires IsExtOf(p, e)
    ensures Ext(p) == e
  {
    var d := |p| - |e|;
    assert forall k :: d < k < |p| ==> p[k] == e[k - d];
    var dotIndex := RFind(p, '.');
    assert p[d] == '.';
    assert dotIndex == d;
    var sepIndex := RFind(p, '/');
    assert sepIndex < d;
    var j :| 0 <= j < d && p[j] != '.' && NoSlashIn(p, j, d);
    assert sepIndex < j;
  }

  /** `os.path.join(a, b)` for one extra component. */
  function PathJoin(a: string, b: string): (r: string)
    ensures EndsWith(r, b)
  {
    if StartsWith(b, "/") then b
    else if a == "" || EndsWith(a, "/") then a + b
    else a + "/" + b
  }

  /** Putting a directory in front of a slash-free name does not change the
      extension the filter sees: `Ext` looks only at the last component. */
  lemma ExtUnderDirectory(dir: string, name: string)
    requires '/' !in name
    ensures Ext(PathJoin(dir, name)) == Ext(name)
  {
    var x := if name == "" || name[0] != '/' then
      (if dir == "" || EndsWith(dir, "/") then dir else dir + "/") else "";
    assert PathJoin(dir, name) == x + name;
    assert x == "" || x[|x| - 1] == '/';
    ExtPrefix(x, name);
  }

  lemma ExtPrefix(x: string, name: string)
    requires '/' !in name
    requires x == "" || x[|x| - 1] == '/'
    ensures Ext(x + name) == Ext(name)
  {
    ExtSound(name);
    ExtSound(x + name);
    if Ext(name) != "" {
      IsExtOfPrefixed(x, name, Ext(name));
      ExtComplete(x + name, Ext(name));
    } else if Ext(x + name) != "" {
      IsExtOfUnprefixed(x, name, Ext(x + name));
      ExtComplete(name, Ext(x + name));
    }
  }

  lemma IsExtOfPrefixed(x: string, name: string, e: string)
    requires IsExtOf(name, e)
    ensures IsExtOf(x + name, e)
  {
    var p := x + name;
    var d := |name| - |e|;
    var j :| 0 <= j < d && name[j] != '.' && NoSlashIn(name, j, d);
    assert p[|x| + j] == name[j];
    assert NoSlashIn(p, |x| + j, |x| + d) by {
      forall m | |x| + j <= m < |x| + d
        ensures p[m] != '/'
      {
        assert p[m] == name[m - |x|];
      }
    }
    assert p[|p| - |e|..] == name[d..];
  }

  lemma IsExtOfUnprefixed(x: string, name: string, e: string)
    requires '/' !in name
    requires x == "" || x[|x| - 1] == '/'
    requires IsExtOf(x + name, e)
    ensures IsExtOf(name, e)
  {
    var p := x + name;
    var d := |p| - |e|;
    var j :| 0 <= j < d && p[j] != '.' && NoSlashIn(p, j, d);
    if x != "" {
      assert p[|x| - 1] == '/';
      assert !(j <= |x| - 1 < d);
      assert |x| - 1 < j;
    }
    assert |x| <= j;
    assert name[j - |x|] == p[j];
    assert name[|name| - |e|..] == p[d..];
    assert NoSlashIn(name, j - |x|, d - |x|) by {
      forall m | j - |x| <= m < d - |x|
        ensures name[m] != '/'
      {
        assert name[m] == p[m + |x|];
      }
    }
  }

  /** `re.match(r"^.*\.egg$", c)`: `.` does not match a newline and `$` also
      matches just before a final newline. */
  predicate IsEggName(c: string)
  {
    || (EndsWith(c, ".egg") && '\n' !in c[..|c| - 4])
    || (EndsWith(c, ".egg\n") && '\n' !in c[..|c| - 5])
  }

  /** For newline-free names the regular expression is exactly "ends in `.egg`". */
  lemma EggNameIsSuffix(c: string)
    requires '\n' !in c
    ensures IsEggName(c) <==> EndsWith(c, ".egg")
  {
    if |c| >= 5 {
      assert c[|c| - 5..][4] == c[|c| - 1];
    }
    assert !EndsWith(c, ".egg\n");
  }

  /** Some `/`-separated component of `p` is an egg directory name. */
  predicate InEgg(p: string)
  {
    var parts := Split(p, '/');
    exists i :: 0 <= i < |parts| && IsEggName(parts[i])
  }
}

=== FILE: results.dfy ===
/** Optional values and success/failure results shared by the model. */
module Results {

  /** A value that may be absent (Python's `None`). */
  datatype Option<+T> = None | Some(value: T)

  /** The outcome of a step that either returns a value or raises. */
  datatype Result<+T, +E> = Success(value: T) | Failure(error: E)

  /** Python truthiness of an optional string: `None` and `""` are both falsy. */
  predicate Truthy(o: Option<string>)
  {
    o.Some? && o.value != ""
  }
}

=== FILE: scenarios.dfy ===
/** Concrete runs of the model: a trailing-blank fix on one file, for real,
    verbosely and in dry-run. */
module Scenarios {
  import opened Results
  import opened Text
  import opened Common
  import opened Catalog
  import opened GitPep8

  const W291 := Rule("W291", "trailing whitespace")

  /** A formatter that strips the trailing blank of "x \n" and otherwise
      leaves content alone, always exiting 0. */
  function StripFormatter(): Formatter
  {
    (id: string, path: string, content: string) =>
      ToolRun(0, "fixed", if content == "x \n" then "x\n" else content)
  }

  function GitOk(): seq<string> -> Completion
  {
    argv => Completion(0, "", "")
  }

  lemma SmallDecimals()
    ensures Decimal(0) == "0" && Decimal(1) == "1" && Decimal(2) == "2"
  {
    assert Digit(0) == '0';
    assert Digit(1) == '1';
    assert Digit(2) == '2';
  }

  /** The index comes before the total in a notice: the first of two rules
      reads "1 of 2". */
  lemma FirstOfTwoNotice()
    ensures NoticeText(1, 2, W291) == "1 of 2: W291 trailing whitespace"
  {
    SmallDecimals();
    assert NoticeText(1, 2, W291) == "1" + " of " + "2" + ": " + "W291" + " " + "trailing whitespace";
    FirstOfTwoLiteral();
  }

  lemma FirstOfTwoLiteral()
    ensures "1" + " of " + "2" + ": " + "W291" + " " + "trailing whitespace" == "1 of 2: W291 trailing whitespace"
  {
  }

  /** `git` is on the path and `pep8` is not: the header, one line per
      binary in the order asked, and exit status 1. */
  lemma MissingPep8()
    ensures TestForRequiredBinaries(["git", "pep8"], b => b == "git")
         == BinaryCheck([Alert(MissingHeader), Alert("\tgit: Found"), Alert("\tpep8: Not found")], Some(1))
  {
    var needed := ["git", "pep8"];
    var found := (b: string) => b == "git";
    assert !found(needed[1]) by { assert needed[1][0] != 'g'; }
    var r := TestForRequiredBinaries(needed, found);
    assert r.events[1] == Alert("\t" + "git" + ": " + "Found");
    assert r.events[2] == Alert("\t" + "pep8" + ": " + "Not found");
    assert "\t" + "git" + ": " + "Found" == "\tgit: Found";
    assert "\t" + "pep8" + ": " + "Not found" == "\tpep8: Not found";
    assert r.events == [r.events[0], r.events[1], r.events[2]];
  }

  /** The notice the scenario prints. */
  lemma ScenarioNotice()
    ensures NoticeText(1, 1, W291) == "1 of 1: W291 trailing whitespace"
  {
    var one := Decimal(1);
    SmallDecimals();
    var parts := one + " of " + one + ": " + W291.id + " " + W291.description;
    assert NoticeText(1, 1, W291) == parts;
    NoticeLiteral();
  }

  lemma NoticeLiteral()
    ensures "1" + " of " + "1" + ": " + "W291" + " " + "trailing whitespace" == "1 of 1: W291 trailing whitespace"
  {
  }

  /** The summaries the scenario can print. */
  lemma ScenarioSummaries()
    ensures SummaryText(0) == "# 0 files scanned/modified"
    ensures SummaryText(1) == "# 1 files scanned/modified"
  {
    SmallDecimals();
    SummaryLiterals();
  }

  lemma SummaryLiterals()
    ensures "# " + "0" + " files scanned/modified" == "# 0 files scanned/modified"
    ensures "# " + "1" + " files scanned/modified" == "# 1 files scanned/modified"
  {
  }

  /** The commit the scenario launches. */
  lemma ScenarioCommit()
    ensures CommitArgv("foo.py", Comment(W291), None)
         == ["git", "commit", "foo.py", "-m", "foo.py: W291 trailing whitespace"]
  {
    var msg := "foo.py" + ": " + ("W291" + " " + "trailing whitespace");
    assert msg == "foo.py: W291 trailing whitespace";
    assert CommitMessage("foo.py", Comment(W291)) == msg;
    assert CommitArgv("foo.py", Comment(W291), None) == ["git", "commit", "foo.py", "-m", msg] + [];
  }

  /** The formatter command the scenario launches. */
  lemma ScenarioFormatter()
    ensures FormatterArgv(FormatterBinary(None), W291.id, "foo.py")
         == ["autopep8", "--in-place", "--verbose", "--select=W291", "foo.py"]
  {
    assert "--select=" + W291.id == "--select=W291";
  }

  /** The generator for one rule and one file: the notice, then the pair. */
  lemma OneByOneSteps()
    ensures LoopParams([W291], ["foo.py"]) == [Notice(1, 1, W291), Visit(W291, "foo.py")]
  {
    assert [W291][1..] == [];
    assert ParamsFrom([], 2, 1, ["foo.py"]) == [];
    var vs := Visits(W291, ["foo.py"]);
    assert |vs| == 1 && vs[0] == Visit(W291, "foo.py");
    assert vs == [Visit(W291, "foo.py")];
  }

  /** The sweep of the pair alone is what the pair does. */
  lemma SweepPair(o: Options, format: Formatter, git: seq<string> -> Completion, fs: Files)
    ensures var v := DoVisit(o, format, git, W291, "foo.py", fs);
      var n := if v.result == Success(true) then 1 else 0;
      v.result.Success? ==>
        Sweep(o, format, git, [Visit(W291, "foo.py")], fs, 0) == Run(v.events, v.fs, Success(n))
  {
    var steps := [Visit(W291, "foo.py")];
    assert steps[1..] == [];
    var v := DoVisit(o, format, git, W291, "foo.py", fs);
    assert DoStep(o, format, git, steps[0], fs) == v;
    if v.result.Success? {
      var n := if v.result == Success(true) then 1 else 0;
      assert (if v.result.value then 1 else 0) == n;
      assert Sweep(o, format, git, [], v.fs, n) == Run([], v.fs, Success(n));
      assert v.events + [] == v.events;
    }
  }

  /** The run over one rule and one file is the notice line, then what the
      pair does, then the summary of its count. */
  lemma SweepTwo(o: Options, format: Formatter, git: seq<string> -> Completion, fs: Files)
    ensures var v := DoVisit(o, format, git, W291, "foo.py", fs);
      var r := RunOnFiles(o, format, git, [W291], ["foo.py"], fs);
      var n := if v.result == Success(true) then 1 else 0;
      v.result.Success? ==>
        r == Run([Progress(NoticeText(1, 1, W291))] + v.events + [Summary(SummaryText(n))], v.fs, Success(n))
  {
    OneByOneSteps();
    SweepPair(o, format, git, fs);
    var steps := [Notice(1, 1, W291), Visit(W291, "foo.py")];
    assert steps[1..] == [Visit(W291, "foo.py")];
    assert DoStep(o, format, git, steps[0], fs) == StepOut([Progress(NoticeText(1, 1, W291))], fs, Success(false));
  }

  /** The pair itself: the formatter is launched with `--select=W291`, it
      changes the file, so its output is shown and the file is committed with
      the message `"foo.py: W291 trailing whitespace"`. */
  lemma TrailingWhitespaceVisit(o: Options, fs: Files)
    requires o == Options(false, false, None, None) && fs == map["foo.py" := "x \n"]
    ensures var v := DoVisit(o, StripFormatter(), GitOk(), W291, "foo.py", fs);
      && v.result == Success(true)
      && v.fs == map["foo.py" := "x\n"]
      && v.events == [ Spawn(["autopep8", "--in-place", "--verbose", "--select=W291", "foo.py"]),
                       Output("fixed"),
                       Spawn(["git", "commit", "foo.py", "-m", "foo.py: W291 trailing whitespace"]) ]
  {
    PairOutcome(o, fs);
    PairEvents(o, fs);
    ScenarioFormatter();
    ScenarioCommit();
    var cmd := ["autopep8", "--in-place", "--verbose", "--select=W291", "foo.py"];
    var commit := ["git", "commit", "foo.py", "-m", "foo.py: W291 trailing whitespace"];
    QuietOrder(Spawn(cmd), Output("fixed"), Spawn(commit));
  }

  /** One rule, one file with a trailing blank: one formatter launch, one
      commit, and a count of 1. */
  lemma TrailingWhitespaceScenario(o: Options, fs: Files)
    requires o == Options(false, false, None, None) && fs == map["foo.py" := "x \n"]
    ensures var r := RunOnFiles(o, StripFormatter(), GitOk(), [W291], ["foo.py"], fs);
      && r.result == Success(1)
      && r.fs == map["foo.py" := "x\n"]
      && r.events == [ Progress("1 of 1: W291 trailing whitespace"),
                       Spawn(["autopep8", "--in-place", "--verbose", "--select=W291", "foo.py"]),
                       Output("fixed"),
                       Spawn(["git", "commit", "foo.py", "-m", "foo.py: W291 trailing whitespace"]),
                       Summary("# 1 files scanned/modified") ]
  {
    TrailingWhitespaceVisit(o, fs);
    ScenarioNotice();
    ScenarioSummaries();
    SweepTwo(o, StripFormatter(), GitOk(), fs);
    var cmd := ["autopep8", "--in-place", "--verbose", "--select=W291", "foo.py"];
    var commit := ["git", "commit", "foo.py", "-m", "foo.py: W291 trailing whitespace"];
    QuietRunOrder(Progress("1 of 1: W291 trailing whitespace"), Spawn(cmd), Output("fixed"), Spawn(commit),
                  Summary("# 1 files scanned/modified"));
  }

  /** The same run in dry-run: the command is echoed, nothing is launched,
      the file is untouched, and the count is 0. */
  lemma TrailingWhitespaceDryRun(o: Options, fs: Files)
    requires o == Options(true, false, None, None) && fs == map["foo.py" := "x \n"]
    ensures var r := RunOnFiles(o, StripFormatter(), GitOk(), [W291], ["foo.py"], fs);
      && r.result == Success(0)
      && r.fs == map["foo.py" := "x \n"]
      && r.events == [ Progress("1 of 1: W291 trailing whitespace"),
                       Echo(["autopep8", "--in-place", "--verbose", "--select=W291", "foo.py"]),
                       Summary("# 0 files scanned/modified") ]
  {
    var cmd := ["autopep8", "--in-place", "--verbose", "--select=W291", "foo.py"];
    ScenarioFormatter();
    var v := DoVisit(o, StripFormatter(), GitOk(), W291, "foo.py", fs);
    assert v.events == [Echo(cmd)] by {
      VisitEvents(o, StripFormatter(), GitOk(), W291, "foo.py", fs);
    }
    ScenarioNotice();
    ScenarioSummaries();
    SweepTwo(o, StripFormatter(), GitOk(), fs);
    DryRunOrder(Progress("1 of 1: W291 trailing whitespace"), Echo(cmd), Summary("# 0 files scanned/modified"));
  }

  /** The same run with `--verbose`: each command is echoed just before it
      is launched, and the formatter output comes between the two pairs. */
  lemma TrailingWhitespaceVerbose(o: Options, fs: Files)
    requires o == Options(false, true, None, None) && fs == map["foo.py" := "x \n"]
    ensures var r := RunOnFiles(o, StripFormatter(), GitOk(), [W291], ["foo.py"], fs);
      && r.result == Success(1)
      && r.fs == map["foo.py" := "x\n"]
      && r.events == [ Progress("1 of 1: W291 trailing whitespace"),
                       Echo(["autopep8", "--in-place", "--verbose", "--select=W291", "foo.py"]),
                       Spawn(["autopep8", "--in-place", "--verbose", "--select=W291", "foo.py"]),
                       Output("fixed"),
                       Echo(["git", "commit", "foo.py", "-m", "foo.py: W291 trailing whitespace"]),
                       Spawn(["git", "commit", "foo.py", "-m", "foo.py: W291 trailing whitespace"]),
                       Summary("# 1 files scanned/modified") ]
  {
    VerboseVisit(o, fs);
    ScenarioNotice();
    ScenarioSummaries();
    SweepTwo(o, StripFormatter(), GitOk(), fs);
    var cmd := ["autopep8", "--in-place", "--verbose", "--select=W291", "foo.py"];
    var commit := ["git", "commit", "foo.py", "-m", "foo.py: W291 trailing whitespace"];
    VerboseRunOrder(Progress("1 of 1: W291 trailing whitespace"), Echo(cmd), Spawn(cmd), Output("fixed"),
                    Echo(commit), Spawn(commit), Summary("# 1 files scanned/modified"));
  }

  /** The verbose pair: echo and launch of the formatter, its output, then
      echo and launch of the commit. */
  lemma VerboseVisit(o: Options, fs: Files)
    requires o == Options(false, true, None, None) && fs == map["foo.py" := "x \n"]
    ensures var v := DoVisit(o, StripFormatter(), GitOk(), W291, "foo.py", fs);
      && v.result == Success(true)
      && v.fs == map["foo.py" := "x\n"]
      && v.events == [ Echo(["autopep8", "--in-place", "--verbose", "--select=W291", "foo.py"]),
                       Spawn(["autopep8", "--in-place", "--verbose", "--select=W291", "foo.py"]),
                       Output("fixed"),
                       Echo(["git", "commit", "foo.py", "-m", "foo.py: W291 trailing whitespace"]),
                       Spawn(["git", "commit", "foo.py", "-m", "foo.py: W291 trailing whitespace"]) ]
  {
    PairOutcome(o, fs);
    PairEvents(o, fs);
    ScenarioFormatter();
    ScenarioCommit();
    var cmd := ["autopep8", "--in-place", "--verbose", "--select=W291", "foo.py"];
    var commit := ["git", "commit", "foo.py", "-m", "foo.py: W291 trailing whitespace"];
    VerboseOrder(Echo(cmd), Spawn(cmd), Output("fixed"), Echo(commit), Spawn(commit));
  }

  /** The formatter's run on the scenario's file. */
  lemma StripRun()
    ensures StripFormatter()("W291", "foo.py", "x \n") == ToolRun(0, "fixed", "x\n")
    ensures "x\n" != "x \n"
  {
    assert |"x\n"| != |"x \n"|;
  }

  /** The pair, verbose or not, ends committed with the blank stripped. */
  lemma PairOutcome(o: Options, fs: Files)
    requires !o.dryrun && o.author == None
    requires fs == map["foo.py" := "x \n"]
    ensures DoVisit(o, StripFormatter(), GitOk(), W291, "foo.py", fs).result == Success(true)
    ensures DoVisit(o, StripFormatter(), GitOk(), W291, "foo.py", fs).fs == map["foo.py" := "x\n"]
  {
    StripRun();
    assert fs["foo.py" := "x\n"] == map["foo.py" := "x\n"];
  }

  /** The pair's events, verbose or not: the changed-pair trace with the
      scenario's output. */
  lemma PairEvents(o: Options, fs: Files)
    requires !o.dryrun && o.author == None
    requires fs == map["foo.py" := "x \n"]
    ensures var cmd := FormatterArgv(FormatterBinary(o.autopep8), W291.id, "foo.py");
      var commit := CommitArgv("foo.py", Comment(W291), None);
      DoVisit(o, StripFormatter(), GitOk(), W291, "foo.py", fs).events
        == Echoed(o.verbose, cmd) + ([Spawn(cmd), Output("fixed")] + (Echoed(o.verbose, commit) + [Spawn(commit)]))
  {
    var l := Launch(o, StripFormatter(), GitOk(), W291, "foo.py", fs);
    StripRun();
    LaunchTrace(o, StripFormatter(), GitOk(), W291, "foo.py", fs);
    VisitEvents(o, StripFormatter(), GitOk(), W291, "foo.py", fs);
  }

  /** The verbose pair's five events, in order. */
  lemma VerboseOrder(a: Event, b: Event, c: Event, d: Event, e: Event)
    ensures [a] + ([b, c] + ([d] + [e])) == [a, b, c, d, e]
  {
  }

  /** The quiet pair's three events, in order. */
  lemma QuietOrder(b: Event, c: Event, e: Event)
    ensures [] + ([b, c] + ([] + [e])) == [b, c, e]
  {
  }

  /** A quiet run's five events, in order. */
  lemma QuietRunOrder(p: Event, a: Event, b: Event, c: Event, z: Event)
    ensures [p] + [a, b, c] + [z] == [p, a, b, c, z]
  {
  }

  /** A verbose run's seven events, in order. */
  lemma VerboseRunOrder(p: Event, a: Event, b: Event, c: Event, d: Event, e: Event, z: Event)
    ensures [p] + [a, b, c, d, e] + [z] == [p, a, b, c, d, e, z]
  {
  }

  /** A dry run's three events, in order. */
  lemma DryRunOrder(p: Event, a: Event, z: Event)
    ensures [p] + [a] + [z] == [p, a, z]
  {
  }
}

=== FILE: text.dfy ===
/** String helpers with the semantics of the Python built-ins the tool relies on. */
module Text {

  predicate StartsWith(s: string, prefix: string)
  {
    |prefix| <= |s| && s[..|prefix|] == prefix
  }

  predicate EndsWith(s: string, suffix: string)
  {
    |suffix| <= |s| && s[|s| - |suffix|..] == suffix
  }

  /** `s.rfind(c)`: the index of the last occurrence of `c`, or -1. */
  function RFind(s: string, c: char): (r: int)
    ensures -1 <= r < |s|
    ensures r >= 0 ==> s[r] == c
    ensures forall k :: r < k < |s| ==> s[k] != c
    decreases |s|
  {
    if |s| == 0 then -1
    else if s[|s| - 1] == c then |s| - 1
    else RFind(s[..|s| - 1], c)
  }

  /** The index of the first occurrence of `c` in `s`. */
  function IndexOf(s: string, c: char): (k: nat)
    requires c in s
    ensures k < |s| && s[k] == c
    ensures forall j :: 0 <= j < k ==> s[j] != c
  {
    if s[0] == c then 0 else 1 + IndexOf(s[1..], c)
  }

  /** `sep.join(parts)`. */
  function Join(parts: seq<string>, sep: string): string
  {
    if |parts| == 0 then ""
    else if |parts| == 1 then parts[0]
    else parts[0] + sep + Join(parts[1..], sep)
  }

  /** `s.split(sep)` for a one-character separator: the maximal
      separator-free pieces, empty ones included. */
  function Split(s: string, sep: char): (parts: seq<string>)
    ensures |parts| >= 1
    ensures forall i :: 0 <= i < |parts| ==> sep !in parts[i]
    ensures Join(parts, [sep]) == s
    decreases |s|
  {
    if sep !in s then [s]
    else
      var k := IndexOf(s, sep);
      var rest := Split(s[k + 1..], sep);
      assert s == s[..k] + [sep] + s[k + 1..];
      [s[..k]] + rest
  }

  /** Splitting undoes joining, so a path and its component list determine each other. */
  lemma {:induction false} SplitJoin(parts: seq<string>, sep: char)
    requires |parts| >= 1
    requires forall i :: 0 <= i < |parts| ==> sep !in parts[i]
    ensures Split(Join(parts, [sep]), sep) == parts
    decreases |parts|
  {
    var s := Join(parts, [sep]);
    if |parts| == 1 {
    } else {
      var tail := Join(parts[1..], [sep]);
      assert s == parts[0] + [sep] + tail;
      assert s[|parts[0]|] == sep;
      assert sep in s;
      var k := IndexOf(s, sep);
      assert forall j :: 0 <= j < |parts[0]| ==> s[j] == parts[0][j];
      assert k == |parts[0]|;
      assert s[..k] == parts[0];
      assert s[k + 1..] == tail;
      SplitJoin(parts[1..], sep);
    }
  }

  /** The decimal digit character for `d`. */
  function Digit(d: nat): (c: char)
    requires d < 10
    ensures '0' <= c <= '9'
  {
    (('0' as int) + d) as char
  }

  predicate IsDigits(s: string)
  {
    forall i :: 0 <= i < |s| ==> '0' <= s[i] <= '9'
  }

  /** `str(n)` / `"{0}".format(n)` for a natural number. */
  function Decimal(n: nat): (r: string)
    ensures |r| >= 1 && IsDigits(r)
    ensures r[0] == '0' ==> n == 0
  {
    if n < 10 then [Digit(n)] else Decimal(n / 10) + [Digit(n % 10)]
  }

  /** The value of a string of decimal digits. */
  function DecimalValue(s: string): nat
    requires IsDigits(s)
  {
    if |s| == 0 then 0
    else 10 * DecimalValue(s[..|s| - 1]) + ((s[|s| - 1] as int) - ('0' as int))
  }

  /** Reading back a formatted number gives the number: the counters in the
      progress notices and in the summary are unambiguous. */
  lemma {:induction false} DecimalRoundTrip(n: nat)
    ensures DecimalValue(Decimal(n)) == n
  {
    if n >= 10 {
      DecimalRoundTrip(n / 10);
      var r := Decimal(n);
      assert r[..|r| - 1] == Decimal(n / 10);
    }
  }
}
